=== FILE: README.md ===
# Ball blast: a verified model of the game tick, the replication codec and the relay

Ball blast is a pygame arcade game. A cannon at the bottom of the screen fires bullets
upward at falling balls. A normal ball loses one hit point per hit and pops at zero,
possibly splitting into smaller balls; a reward ball grows when hit and is cashed in at
its maximum size. The game ends when a ball touches a cannon. In two-player mode a relay
server passes each player's state to the other, and the host (player 0) is the only one
that spawns balls: it ships its whole ball list to the client (player 1), which replaces
its own with it. Clearing a level draws a weighted random card whose effect raises one
of the player's stats.

This project models that logic as pure Dafny functions over immutable records and proves
what it promises:

- `Bullets`: the bullet record, the 10-pixel upward step, and flight with off-screen
  culling.
- `Cannons`: horizontal movement that stays on screen, the time-gated single or double
  shot, critical damage, and the additive card-effect stat bag with its 50 ms floor on the
  firing interval.
- `MiniCannons`: the mini cannon that follows the main cannon at a fixed offset, fires
  every 100 ms and lives for 15 s.
- `Gacha`: the card pool and the cumulative-weight card draw. The random number is a
  parameter.
- `WaveFire`: the burst-firing counters of multiplayer mode, which both game variants
  share.
- `Collisions`: one collision pass, generic in the ball type. It works over a snapshot of
  the balls. Each ball consumes at most the first bullet that hits it, and the hit bullet
  is removed.
- `Balls`: the newer game's normal and reward balls, the effect of one hit, and the
  tagged record codec used on the wire.
- `Wire`, `Relay`, `LegacyRelay`: the message shapes and the relay server's table, id
  assignment, one-reply-per-message rule and disconnection. `LegacyRelay` is the older
  server, which is proved to answer identically.
- `Game`: one tick of the newer game (test_multi_test/game.py), with the snapshot
  round trip host → relay → client.
- `LegacyGame`: one tick of the older game (test_multi/game.py), which always fires in
  waves, has no reward balls and sends ball objects as they are.

What the ball class itself does (hit test, reward growth, splitting, movement, the
pixel-mask overlap with a cannon) lives in a ball.py that is not part of this model. It
enters each game as a `Kernel` record of uninterpreted functions, so nothing is assumed
about split ratios or bounce rules. Random draws (spawn position, size, hit points,
velocity, the reward-ball roll, the critical-hit roll, the card draw) and the clock are
parameters. A Python exception that would end the tick is `None`.

Details of the source the model follows that are easy to miss:

- The relay stores `{}` for a player as soon as it is accepted. So once both players
  are connected, a reply always carries the other player's cannon position, bullets and
  score, falling back to 300, `[]` and 0 (test_multi_test/server.py:43).
- Single-player firing in the newer game fires when strictly more than the interval
  has passed (`>`, test_multi_test/game.py:173). `Cannon.shoot` fires at `>=`
  (test_multi_test/cannon.py:50).
- In multiplayer the newer game has no `shot_delay` or `bullets_per_second` attribute.
  A card naming either one raises (`Game.ApplyCardEffect` returns `None`;
  test_multi_test/game.py:441-455).
- The opponent's bullets are collided against the balls as they stand after this
  player's pass, including balls just split off (test_multi_test/game.py:198-267).

## Model

| member | source | states |
|---|---|---|
| Bullets.Plain | test_multi_test/bullet.py:4-9 | a new bullet stores the given position, damage 1 and no double flag |
| Bullets.Move | test_multi_test/bullet.py:22-23 | a step moves the bullet strictly up and changes nothing but its height |
| Bullets.AdvanceClimbs | test_multi_test/bullet.py:22-23 | after k steps the height is y₀ − 10·k and every other field is unchanged |
| Bullets.Fly | test_multi_test/game.py:178-182 | flight never adds bullets and every surviving bullet is on screen (y ≥ 0) |
| Bullets.FlyKeeps | test_multi_test/game.py:158-167 | a bullet survives flight exactly when it is the one-step move of an input bullet that is still on screen (both directions) |
| Cannons.NewCannon | test_multi_test/cannon.py:6-26 | a new cannon starts at the given position with a 50 ms interval, no shot yet, one hit point, and a panel with no damage bonus, no shot-delay change and no double shot |
| Cannons.Move | test_multi_test/cannon.py:28-33 | x changes by exactly ±5 or not at all: left exactly when asked and x−5 > 0, right exactly when asked and x+5 < width; unknown directions change nothing and y never changes |
| Cannons.MoveStaysOnScreen | test_multi_test/cannon.py:29-32 | a cannon strictly inside the screen stays strictly inside after any move |
| Cannons.CreateBullet | test_multi_test/cannon.py:38-46 | a created bullet sits at the cannon's height, offset horizontally; damage is 1 or 2, and 2 exactly when the crit roll succeeds with a non-zero damage bonus; double exactly when bullets_per_second > 0 |
| Cannons.Shoot | test_multi_test/cannon.py:49-58 | nothing happens before the interval has elapsed; otherwise the shot time is updated and the existing bullets are kept, followed by two bullets at x−20 and x+20 in double mode or one at x otherwise; each new bullet has damage 2 exactly when its own crit roll succeeds with a non-zero damage bonus (1 otherwise), and is double exactly when bullets_per_second > 0 |
| Cannons.OffsetShiftsOnly | test_multi_test/cannon.py:38-46 | a bullet created with an offset is the plain bullet with only its x moved by the offset |
| Cannons.ShootThrottles | test_multi_test/cannon.py:49-51 | after a shot, a second shoot call before the interval has elapsed adds nothing and changes nothing, whatever the crit rolls |
| Cannons.DoubleShotIsMirrored | test_multi_test/cannon.py:53-56 | the two bullets of a double shot are symmetric about the cannon, at its height, and both double |
| Cannons.ApplyCardEffect | test_multi_test/cannon.py:60-70 | each known stat gains its delta; the interval is recomputed only when shot_delay is present, and is then exactly max(50, 50 + shot_delay); position, shot time and hp are unchanged |
| Cannons.UnknownKeysChangeNothing | test_multi_test/cannon.py:60-70 | an effect naming no known stat leaves the cannon unchanged |
| Cannons.DelayFloor | test_multi_test/cannon.py:67-68 | starting from an interval of at least 50 ms, any sequence of card effects keeps it at least 50 ms |
| Cannons.CardEffectsCommute | test_multi_test/cannon.py:60-70 | applying two effects in either order gives the same cannon |
| MiniCannons.NewMiniCannon | test_multi_test/mini_cannon.py:17-36 | a new mini cannon sits at the main cannon plus (60, 40), with its last shot time equal to its spawn time and no bullets |
| MiniCannons.Update | test_multi_test/mini_cannon.py:38-62 | the mini cannon moves to the main cannon plus (60, 40); it fires (and records the time) exactly when 100 ms have passed, and then its bullets are the old ones plus one plain bullet at its new position, all flown one step; surviving bullets are on screen; it reports alive exactly while less than 15 s have passed since spawning |
| MiniCannons.ShotLeavesFromMiniCannon | test_multi_test/mini_cannon.py:51-59 | a shot that survives its first step is the last bullet and starts from the mini cannon's new position |
| MiniCannons.NoEarlyShot | test_multi_test/mini_cannon.py:34-35 | no shot is fired within the first 100 ms after spawning |
| Gacha.TotalWeightIsFour | test_multi_test_test/gacha.py:43 | the total weight is the sum of the pool's weights, which is 4 |
| Gacha.EffectsAreSingleDeltas | test_multi_test_test/gacha.py:17-42 | every card's effect names exactly one known stat |
| Gacha.Scan | test_multi_test_test/gacha.py:55-59 | the scan returns the first card whose cumulative weight is at least r, and finds none exactly when r exceeds every cumulative weight |
| Gacha.FallbackOnlyAboveTotal | test_multi_test_test/gacha.py:60-61 | with non-negative weights, the last-card fallback is taken exactly when r exceeds the total weight |
| Gacha.PickMonotone | test_multi_test_test/gacha.py:55-59 | a larger draw never picks an earlier card |
| Gacha.DrawCard | test_multi_test_test/gacha.py:53-61 | the loop returns the name, image and effect of a pool card, the one the scan picks; for r in [0, total] it is the first card whose cumulative weight covers r |
| WaveFire.Tick | test_multi_test/game.py:145-155 | the wave timer restarts at the interval and resets the wave count; a shot is fired exactly when the wave still has shots left and the cooldown has reached the delay; a shot resets the cooldown and raises the wave count by one; otherwise the cooldown counts up while the wave has shots left and stands still once it is spent; the counters' invariant (count ≤ shots per wave) is kept |
| WaveFire.ShotsWithinWave | test_multi_test/game.py:150-155 | within one wave, no more shots are fired than the wave has left |
| Collisions.FirstHit | test_multi_test/game.py:203-205 | the bullet found is the first one in the list that hits the ball, and none is found exactly when no bullet hits it |
| Collisions.Without | test_multi_test/game.py:205 | removing the hit bullet removes exactly that one bullet |
| Collisions.Resolve | test_multi_test/game.py:202-221 | each ball consumes at most one bullet, the bullet list shrinks by exactly the number of hits and keeps only original bullets, and every ball is kept, popped or cashed, with at most one pop or cash per hit |
| Collisions.NoHitsIffAllMiss | test_multi_test/game.py:202-221 | a pass scores no hit exactly when no bullet touches any ball (both directions) |
| Collisions.OneBallFate | test_multi_test/game.py:203-220 | a ball that some bullet hits consumes the first such bullet and only it, scores one hit, and is kept changed, replaced by its split children, or cashed exactly as the strike rule says; a ball nothing hits is kept and consumes nothing |
| Collisions.FirstBallThenRest | test_multi_test/game.py:202-221 | a pass is the first ball's own pass followed by the pass of the remaining balls over the bullets it left, with kept balls, children and counts concatenated or added in order |
| Collisions.SurvivingBulletsWereThere | test_multi_test/game.py:202-221 | every bullet left after a pass was in the list before it |
| Collisions.MissesChangeNothing | test_multi_test/game.py:202-221 | when no bullet hits any ball, the pass changes nothing |
| Balls.Strike | test_multi_test/game.py:207-220 | a normal ball loses exactly one hit point and pops exactly at hp ≤ 0, splitting only if radius > 10 and it has splits left; a reward ball grows and is cashed exactly when it reaches its maximum radius |
| Balls.DecodeBall | test_multi_test/game.py:313-339 | a record tagged "reward" becomes a reward ball; any other tag becomes a normal ball and fails exactly when a counter is missing |
| Balls.DecodeEncodeBall | test_multi_test/game.py:360-382 | decoding the record the host builds for a ball gives back exactly that ball |
| Balls.DecodeEncodeBalls | test_multi_test/game.py:359-384 | decoding the host's ball list gives back exactly the host's balls, in order |
| Wire.BulletsRoundTrip | test_multi_test/game.py:303-307 | a bullet list sent on the wire and rebuilt by the receiver keeps every position, in order, as plain bullets |
| Relay.Accept | test_multi_test/server.py:28-54 | nobody is accepted exactly when the game has started or two players are connected; otherwise the new player's id is the number already connected (0, then 1), ready exactly for the last expected player, its state starts empty, and the game starts with the second player |
| Relay.AcceptedIdIsFresh | test_multi_test/server.py:28-54 | after any sequence of connections, messages and disconnections from an empty server, an accepted id is never one that is connected or has a stored state |
| Relay.ReplayKeepsReachable | test_multi_test/server.py:28-125 | every event sequence keeps the table reachable: before the start only player 0 can be connected, and every stored state belongs to a connected player |
| Relay.LeavingAfterStartReopensNothing | test_multi_test/server.py:28-54 | once both players joined, a player leaving does not let anyone connect again, and the other player's entry is left as it was |
| Relay.TwoConnections | test_multi_test/server.py:28-54 | from an empty server the first player gets (0, not ready), the second (1, ready) and starts the game, and a third is refused |
| Relay.ReplyFor | test_multi_test/server.py:90-104 | the reply is empty without an entry for the other player; otherwise it carries its cannon x, bullets and score with defaults 300, [] and 0, and a ball list exactly when the other player is the host and sent one |
| Relay.ReplyIgnoresOwnState | test_multi_test/server.py:91-95 | what a player stores never affects the reply it gets |
| Relay.HandleMessage | test_multi_test/server.py:87-104 | only the sender's entry is replaced by the message, the reply is built from the other entry, and player 0 never receives balls |
| Relay.Disconnect | test_multi_test/server.py:114-125 | the player is gone from both tables and every other entry is unchanged |
| Relay.DisconnectIdempotent | test_multi_test/server.py:114-125 | disconnecting twice equals disconnecting once |
| Relay.HandleClient | test_multi_test/server.py:76-112 | one reply per received message, each built from the other player's state, and the session ends with the player disconnected |
| LegacyRelay.AgreesWithRelay | test_multi/server.py:70-84 | the older handler stores and answers every message exactly as the newer one does |
| LegacyRelay.BallsOnlyToPlayerOne | test_multi/server.py:71-82 | the older relay forwards a ball list only to player 1 and only when player 0 sent one; with no other entry the reply is empty |
| Game.Reset | test_multi_test/game.py:64-93 | lists emptied, scores zero, running, spawn timer zero and nothing else changed; alone the stream restarts at (0, 50 ms, 20 per second); in multiplayer the player id and opponent cannon are kept, the opponent's bullets emptied and the wave counters restarted; the result satisfies the tick invariant |
| Game.NewGame | test_multi_test/game.py:44-62 | the host starts at a quarter of the width and the client at three quarters, a lone player in the middle, all 130 px above the bottom; in multiplayer the opponent's cannon is at the same height and the player id is kept |
| Game.FireStream | test_multi_test/game.py:170-176 | single-player fires exactly when more than the interval has passed, and only then records the time |
| Game.UpdateBullets | test_multi_test/game.py:141-182 | at most one new bullet, fired from the cannon exactly when the mode's firing rule says so; both players' bullet lists are flown and end on screen |
| Game.SpawnBall | test_multi_test/game.py:95-125 | a spawned ball starts on the top edge; a normal one keeps the drawn radius and hp (within [40, 70] and the level's hp range when drawn there) and three splits |
| Game.UpdateBalls | test_multi_test/game.py:184-196 | only a lone player or the host spawns, at most one ball per tick, and the timer restarts at zero once it passes the interval; every ball moves |
| Game.ClientNeverSpawns | test_multi_test/game.py:187-192 | a multiplayer client's ball count and spawn timer are untouched by the spawn step |
| Game.Quicken | test_multi_test/game.py:255-257 | cashed reward balls shorten the single-player interval in 5 ms steps, only while it is above 20 |
| Game.HandleCollisions | test_multi_test/game.py:198-267 | this player's pass credits 10 per pop and 50 per cash to the score, the opponent's pass credits other_score on the balls left by the first; a cash adds one shot per wave in multiplayer, or 3 to the fire rate and a shorter interval alone; scores never decrease |
| Game.CheckGameOver | test_multi_test/game.py:269-290 | the game keeps running exactly when it was running and no ball touches this player's cannon or, in multiplayer, the opponent's |
| Game.ApplyCardEffect | test_multi_test/game.py:441-455 | only the stats named by the effect change, by their delta; the single-player interval becomes exactly max(10, interval + shot_delay) when shot_delay is present and is kept otherwise; in multiplayer a shot_delay or bullets_per_second effect raises |
| Game.LevelUp | test_multi_test/game.py:497-505 | a card is drawn and applied only when the level has risen, and the new level is remembered |
| Game.GetPlayerState | test_multi_test/game.py:345-386 | the message carries the cannon x, bullets and score, and a ball list exactly from the multiplayer host, one that decodes back to the host's balls |
| Game.UpdateFromNetwork | test_multi_test/game.py:292-343 | single-player ignores the message; each missing key leaves its field alone; player 1 replaces its balls wholesale with the decoded list; a normal-ball entry without counters raises |
| Game.EmptyReplyChangesNothing | test_multi_test/game.py:292-343 | the empty reply leaves the game unchanged |
| Game.EmptyBallListEmptiesClient | test_multi_test/game.py:310-312 | an empty ball list from the host empties the client's balls |
| Game.HostSnapshotReachesClient | test_multi_test/game.py:298-386 | through the relay, the client ends with exactly the host's balls, and its view of the opponent has the host's cannon x, bullet positions and score |
| Game.Exchange | test_multi_test/game.py:524-532 | without a connected multiplayer game nothing is sent or changed; otherwise the snapshot of the game is sent, then a waiting reply is applied (raising exactly when applying it raises) and with no reply the game is kept |
| Game.Run | test_multi_test/game.py:483-532 | a stopped game does nothing; a single-player tick never sends; a snapshot is sent only by a running, connected multiplayer game, and such a tick that does not raise sends the state of the game after simulation and level-up, whose cannon x and score are the ones the tick ends with; the score never decreases |
| Game.RunKeepsValid | test_multi_test/game.py:483-532 | every tick keeps the spawn timer within the interval, the score non-negative, this player's bullets on screen and the wave counters consistent |
| LegacyGame.Reset | test_multi/game.py:41-60 | lists emptied, scores zero, running, wave counters at their start values (timer, count and cooldown all zero) |
| LegacyGame.NewGame | test_multi/game.py:23-39 | the host starts at a quarter of the width and the client at three quarters, a lone player in the middle with no opponent cannon; the multiplayer flag and player id are the given ones, and the opponent's cannon sits at the player's height |
| LegacyGame.UpdateBullets | test_multi/game.py:89-115 | one wave-firing tick in every mode, at most one bullet added at the cannon's position; the opponent's bullets are flown only in multiplayer; this player's bullets end on screen |
| LegacyGame.ShotLeavesFromCannon | test_multi/game.py:97-102 | a fired bullet that survives its first step is the last bullet, directly above the cannon |
| LegacyGame.SpawnBall | test_multi/game.py:62-73 | a spawned ball starts on the top edge with the drawn radius, hp and velocity and three splits |
| LegacyGame.SpawnedBallInRange | test_multi/game.py:64-72 | with draws from the source's ranges, a spawned ball has radius in [40, 70], hp in [20, 30] and max_splits 3 |
| LegacyGame.UpdateBalls | test_multi/game.py:117-128 | only a lone player or the host spawns, and the timer restarts once it passes 300; every ball moves |
| LegacyGame.Strike | test_multi/game.py:135-143 | a hit costs exactly one hit point; the ball pops exactly at hp ≤ 0, splitting only if radius > 10 with splits left; no ball is ever cashed |
| LegacyGame.NoCash | test_multi/game.py:133-159 | a pass of the older game never cashes a ball |
| LegacyGame.HandleCollisions | test_multi/game.py:130-159 | pops by this player's bullets credit 10 each to score; only in multiplayer are the opponent's bullets resolved, crediting other_score; otherwise they and other_score are untouched |
| LegacyGame.CheckGameOver | test_multi/game.py:161-182 | running stays true exactly when no ball touches this player's cannon or, in multiplayer, the opponent's |
| LegacyGame.GetPlayerState | test_multi/game.py:209-223 | the ball list is attached exactly when player_id is 0, in either mode, and is the host's balls as they are |
| LegacyGame.UpdateFromNetwork | test_multi/game.py:184-207 | alone it is a no-op; otherwise present keys overwrite their fields and only player 1 takes the ball list; setting a missing opponent cannon raises |
| LegacyGame.HostSnapshotReachesClient | test_multi/game.py:184-223 | through the older relay the client ends with exactly the host's balls, cannon x and score |
| LegacyGame.Run | test_multi/game.py:257-277 | a stopped game does nothing; a single-player tick never sends; a running, connected multiplayer tick that does not raise sends the state of the simulated game, whose cannon x and score are the ones the tick ends with; the score never decreases |
| LegacyGame.RunKeepsValid | test_multi/game.py:257-277 | every tick keeps the spawn timer within 300, the wave counters consistent, this player's bullets on screen and the score non-negative |

## Left out

- ball.py (hit test, reward-ball growth and maximum radius, split, move, mask overlap) is not part of this model: these are the uninterpreted `Kernel` functions of each game.
- test_multi's own bullet.py and cannon.py are not part of this model. `LegacyGame` uses the `Bullets` and `Cannons` models of the newer files for them.
- Rendering, image loading and scaling, fonts, the card picture shown after a level-up, and the window's event loop apart from the quit event are left out; they only draw.
- Sockets, pickling, the receive size limit and the daemon threads of both servers are left out, as are the network manager's queue and connection handling. The tick receives "the reply waiting in the queue, if any" as an input.
- The two relay threads run concurrently on a shared table. The model describes one message at a time, and `Relay.HandleClient` covers one connection while the other is silent.
- Relay.Accept: marks the game started together with the second accept. In test_multi_test/server.py:28-54 the accept loop re-checks the player count after starting the second player's thread, so a disconnect in that window reopens the loop and hands out id 1 again. That interleaving of the accept loop with a client thread is not modelled.
- The relay's "game ready" broadcast once both players are connected, and `shutdown`, are left out: they only send or close sockets.
- Positions and velocities that are floats in the source are Dafny reals (ball motion) or integers (cannon and bullet positions); there is no rounding.
- A reward ball's hidden state and a normal ball's original hit points are not carried by `Balls.Ball`; only fields the game reads or sends on the wire are kept.
- The level manager is reduced to its current level number (an input to `Game.Run`); its configuration table is the `LevelConfig` parameter.
- All main.py files, the leaderboard, audio and video playback are outside the modelled core.
- LegacyGame.UpdateFromNetwork: takes pickled ball objects as already-rebuilt `Ball` values, so it does not model a failure to unpickle them.
- LegacyGame.GetPlayerState: sends the host's ball objects as they are; pickling them (they hold a font, a surface and a mask in ball blast/ball.py:37-40) is abstracted away, so a failure to pickle on the host is not modelled.

=== FILE: balls.dfy ===
/** Balls of the newer game (test_multi_test/game.py): normal balls with hit points and a
    split budget, and reward balls that grow when hit. The ball class's own behaviour lives
    in a ball.py that is not part of this model; it enters as the opaque `Kernel`. Only the
    fields that the game reads or replicates are kept. */
module Balls {
  import opened Wrappers
  import opened Bullets
  import opened Collisions
  import Cannons

  datatype Ball =
    | Normal(x: real, y: real, radius: int, dx: real, dy: real, hp: int, maxSplits: int, splitsRemaining: int)
    | Reward(x: real, y: real, radius: int, dx: real, dy: real)

  /** The ball class's behaviour, left uninterpreted: the pixel-mask hit test, the reward
      ball's radius after a successful hit, splitting, one movement step on a screen of the
      given size, the ball-on-cannon mask overlap, and the reward ball's starting and
      maximum radius. */
  datatype Kernel = Kernel(
    isHit: (Ball, Bullet) -> bool,
    grownRadius: Ball -> int,
    split: Ball -> seq<Ball>,
    move: (Ball, int, int) -> Ball,
    touches: (Ball, Cannons.Cannon) -> bool,
    rewardRadius: int,
    maxRadius: int)

  /** A popped ball may only split while it is larger than this radius. */
  const SplitRadiusFloor: int := 10

  /** What one bullet does to the ball it hits. A normal ball loses one hit point and pops
      at zero or below, splitting only when it is large enough and has splits left; a reward
      ball grows and is cashed in once it has reached its maximum radius. */
  function Strike(k: Kernel, b: Ball): (f: Fate<Ball>)
    ensures b.Normal? ==> (f.Pops? <==> b.hp - 1 <= 0) && !f.Cashed?
    ensures b.Normal? && f.Stays? ==> f.ball == b.(hp := b.hp - 1)
    ensures b.Normal? && f.Pops? && f.children != [] ==> b.radius > SplitRadiusFloor && b.splitsRemaining > 0
    ensures b.Normal? && f.Pops? && b.radius > SplitRadiusFloor && b.splitsRemaining > 0 ==>
      f.children == k.split(b.(hp := b.hp - 1))
    ensures b.Reward? ==> !f.Pops? && (f.Cashed? <==> k.grownRadius(b) >= k.maxRadius)
    ensures b.Reward? && f.Stays? ==> f.ball == b.(radius := k.grownRadius(b))
  {
    match b
    case Reward(x, y, _, dx, dy) =>
      var r := k.grownRadius(b);
      if r >= k.maxRadius then Cashed else Stays(Reward(x, y, r, dx, dy))
    case Normal(x, y, radius, dx, dy, hp, maxSplits, splits) =>
      var hit := Normal(x, y, radius, dx, dy, hp - 1, maxSplits, splits);
      if hit.hp <= 0 then
        Pops(if hit.radius > SplitRadiusFloor && hit.splitsRemaining > 0 then k.split(hit) else [])
      else Stays(hit)
  }

  /** One ball entry as serialised by the host: the type tag and motion state, plus the
      hit points and split counters for normal balls only. */
  datatype BallRecord = BallRecord(
    kind: string, x: real, y: real, radius: int, dx: real, dy: real,
    hp: Option<int>, maxSplits: Option<int>, splitsRemaining: Option<int>)

  const RewardTag: string := "reward"
  const NormalTag: string := "normal"

  function EncodeBall(b: Ball): (r: BallRecord)
    ensures r.kind == RewardTag <==> b.Reward?
    ensures r.hp.Some? <==> b.Normal?
  {
    match b
    case Reward(x, y, radius, dx, dy) => BallRecord(RewardTag, x, y, radius, dx, dy, None, None, None)
    case Normal(x, y, radius, dx, dy, hp, maxSplits, splits) =>
      BallRecord(NormalTag, x, y, radius, dx, dy, Some(hp), Some(maxSplits), Some(splits))
  }

  /** Rebuilds a ball from its entry; any tag other than "reward" means a normal ball,
      whose entry must then carry all three counters (a missing one is a KeyError). */
  function DecodeBall(r: BallRecord): (d: Option<Ball>)
    ensures r.kind == RewardTag ==> d.Some? && d.value.Reward?
    ensures r.kind != RewardTag ==> (d.Some? <==> r.hp.Some? && r.maxSplits.Some? && r.splitsRemaining.Some?)
    ensures d.Some? ==> d.value.x == r.x && d.value.y == r.y && d.value.radius == r.radius
    ensures d.Some? ==> d.value.dx == r.dx && d.value.dy == r.dy
    ensures d.Some? && d.value.Normal? ==>
      Some(d.value.hp) == r.hp && Some(d.value.maxSplits) == r.maxSplits && Some(d.value.splitsRemaining) == r.splitsRemaining
  {
    if r.kind == RewardTag then Some(Reward(r.x, r.y, r.radius, r.dx, r.dy))
    else if r.hp.Some? && r.maxSplits.Some? && r.splitsRemaining.Some? then
      Some(Normal(r.x, r.y, r.radius, r.dx, r.dy, r.hp.value, r.maxSplits.value, r.splitsRemaining.value))
    else None
  }

  function EncodeBalls(bs: seq<Ball>): (rs: seq<BallRecord>)
    ensures |rs| == |bs|
    ensures forall i :: 0 <= i < |bs| ==> rs[i] == EncodeBall(bs[i])
  {
    seq(|bs|, i requires 0 <= i < |bs| => EncodeBall(bs[i]))
  }

  /** Rebuilds a whole ball list in order; it fails if any entry fails. */
  function DecodeBalls(rs: seq<BallRecord>): (d: Option<seq<Ball>>)
    ensures d.Some? ==> |d.value| == |rs|
    ensures d.Some? ==> forall i :: 0 <= i < |rs| ==> DecodeBall(rs[i]) == Some(d.value[i])
    ensures d.None? ==> exists i :: 0 <= i < |rs| && DecodeBall(rs[i]).None?
    decreases |rs|
  {
    if rs == [] then Some([])
    else match (DecodeBall(rs[0]), DecodeBalls(rs[1..]))
      case (Some(b), Some(bs)) => Some([b] + bs)
      case (None, _) => None
      case (_, None) => None
  }

  /** Decoding undoes encoding, ball by ball. */
  lemma DecodeEncodeBall(b: Ball)
    ensures DecodeBall(EncodeBall(b)) == Some(b)
  {
  }

  /** The host's serialised ball list rebuilds exactly the host's balls: same length,
      same tags, positions, radii and velocities, and for normal balls the same hit
      points and split counters. */
  lemma {:induction false} DecodeEncodeBalls(bs: seq<Ball>)
    ensures DecodeBalls(EncodeBalls(bs)) == Some(bs)
    decreases |bs|
  {
    if bs != [] {
      assert EncodeBalls(bs)[1..] == EncodeBalls(bs[1..]);
      DecodeEncodeBall(bs[0]);
      DecodeEncodeBalls(bs[1..]);
      assert [bs[0]] + bs[1..] == bs;
    }
  }
}

=== FILE: bullets.dfy ===
/** Bullets (test_multi_test/bullet.py): a position that climbs a fixed distance per step. */
module Bullets {

  /** Distance a bullet climbs on every call of `move`. */
  const Speed: int := 10

  datatype Bullet = Bullet(x: int, y: int, damage: int, double: bool)

  /** `Bullet(x, y)` with the constructor's default damage and shot flag. */
  function Plain(x: int, y: int): (b: Bullet)
    ensures b.x == x && b.y == y
    ensures b.damage == 1 && !b.double
  {
    Bullet(x, y, 1, false)
  }

  /** One step upwards; only the vertical coordinate changes. */
  function Move(b: Bullet): (r: Bullet)
    ensures r.y < b.y
    ensures r == b.(y := r.y)
  {
    b.(y := b.y - Speed)
  }

  /** `k` successive moves. */
  function Advance(b: Bullet, k: nat): Bullet
    decreases k
  {
    if k == 0 then b else Advance(Move(b), k - 1)
  }

  /** After `k` moves the bullet has climbed exactly `k` times the speed. */
  lemma {:induction false} AdvanceClimbs(b: Bullet, k: nat)
    ensures Advance(b, k) == b.(y := b.y - Speed * k)
    decreases k
  {
    if k > 0 {
      AdvanceClimbs(Move(b), k - 1);
    }
  }

  /** Moves every bullet once and drops those that left the top of the screen,
      keeping the survivors in their original order. */
  function Fly(bs: seq<Bullet>): (r: seq<Bullet>)
    ensures |r| <= |bs|
    ensures forall i :: 0 <= i < |r| ==> r[i].y >= 0
  {
    if bs == [] then []
    else
      var b := Move(bs[0]);
      (if b.y < 0 then [] else [b]) + Fly(bs[1..])
  }

  /** A bullet survives a flight step exactly when it is the moved image of an
      original bullet that is still on screen. */
  lemma {:induction false} FlyKeeps(bs: seq<Bullet>, c: Bullet)
    ensures c in Fly(bs) <==> exists b :: b in bs && c == Move(b) && c.y >= 0
  {
    if bs != [] {
      FlyKeeps(bs[1..], c);
      assert bs == [bs[0]] + bs[1..];
      if c !in Fly(bs) {
        forall b | b in bs && c == Move(b)
          ensures c.y < 0
        {
          if b != bs[0] {
            assert b in bs[1..];
          }
        }
      }
    }
  }

  /** Flying a list with one more bullet at the end flies the prefix and keeps the last
      bullet's moved image when it is still on screen. */
  lemma {:induction false} FlyAppend(bs: seq<Bullet>, b: Bullet)
    ensures Fly(bs + [b]) == Fly(bs) + (if Move(b).y < 0 then [] else [Move(b)])
    decreases |bs|
  {
    if bs == [] {
      assert bs + [b] == [b];
    } else {
      assert (bs + [b])[1..] == bs[1..] + [b];
      FlyAppend(bs[1..], b);
    }
  }
}

=== FILE: cannons.dfy ===
/** The player's cannon (test_multi_test/cannon.py): bounded horizontal movement,
    a time-gated shot with an optional double shot, and an additive card-stat panel. */
module Cannons {
  import opened Bullets

  /** Horizontal distance of one movement step. */
  const Speed: int := 5
  /** Shot interval, in milliseconds, before any card effect. */
  const BaseDelay: int := 50
  /** Horizontal distance of each half of a double shot from the cannon. */
  const DoubleOffset: int := 20

  /** The card-attribute panel `attributes`; its four keys are fixed. */
  datatype Attributes = Attributes(damageBonus: int, shotDelay: int, bulletsPerSecond: int, cannonHp: int)

  datatype Cannon = Cannon(x: int, y: int, attributes: Attributes, currentDelay: int, lastShotTime: int, hp: int)

  /** The panel's keys as they appear in card effects. */
  const DamageBonusKey: string := "damage_bonus"
  const ShotDelayKey: string := "shot_delay"
  const BulletsPerSecondKey: string := "bullets_per_second"
  const CannonHpKey: string := "cannon_hp"

  predicate IsAttributeKey(k: string)
  {
    k == DamageBonusKey || k == ShotDelayKey || k == BulletsPerSecondKey || k == CannonHpKey
  }

  /** A freshly built cannon: empty panel, one hit point, base shot interval. */
  function NewCannon(x: int, y: int): (c: Cannon)
    ensures c.x == x && c.y == y
    ensures c.currentDelay == BaseDelay && c.lastShotTime == 0
    ensures c.hp == 1
    ensures c.attributes == Attributes(0, 0, 0, 1)
  {
    var a := Attributes(0, 0, 0, 1);
    Cannon(x, y, a, BaseDelay + a.shotDelay, 0, a.cannonHp)
  }

  /** One movement step; a step that would reach either screen edge is refused. */
  function Move(c: Cannon, direction: string, screenWidth: int): (r: Cannon)
    ensures r == c.(x := r.x)
    ensures r.x == c.x || r.x == c.x - Speed || r.x == c.x + Speed
    ensures direction != "LEFT" && direction != "RIGHT" ==> r == c
    ensures r.x == c.x - Speed <==> direction == "LEFT" && c.x - Speed > 0
    ensures r.x == c.x + Speed <==> direction == "RIGHT" && c.x + Speed < screenWidth
  {
    if direction == "LEFT" && c.x - Speed > 0 then c.(x := c.x - Speed)
    else if direction == "RIGHT" && c.x + Speed < screenWidth then c.(x := c.x + Speed)
    else c
  }

  /** A cannon strictly inside the screen stays strictly inside it, whatever the direction. */
  lemma MoveStaysOnScreen(c: Cannon, direction: string, screenWidth: int)
    requires 0 < c.x < screenWidth
    ensures 0 < Move(c, direction, screenWidth).x < screenWidth
  {
  }

  /** `create_bullet_with_offset`; `crit` is the outcome of the 30% roll. */
  function CreateBullet(c: Cannon, offset: int, crit: bool): (b: Bullet)
    ensures b.x == c.x + offset && b.y == c.y
    ensures b.damage == 1 || b.damage == 2
    ensures b.damage == 2 <==> crit && c.attributes.damageBonus != 0
    ensures b.double <==> c.attributes.bulletsPerSecond > 0
  {
    var damage := if crit && c.attributes.damageBonus != 0 then 2 else 1;
    Bullet(c.x + offset, c.y, damage, c.attributes.bulletsPerSecond > 0)
  }

  predicate ReadyToShoot(c: Cannon, now: int)
  {
    now - c.lastShotTime >= c.currentDelay
  }

  /** `shoot`: appends one bullet, or a pair 20 px either side in double mode, when the
      shot interval has elapsed; `crit0` and `crit1` are the damage rolls of the bullets. */
  function Shoot(c: Cannon, group: seq<Bullet>, now: int, crit0: bool, crit1: bool): (r: (Cannon, seq<Bullet>))
    ensures !ReadyToShoot(c, now) ==> r == (c, group)
    ensures ReadyToShoot(c, now) ==> r.0 == c.(lastShotTime := now)
    ensures |group| <= |r.1| <= |group| + 2
    ensures r.1[..|group|] == group
    ensures ReadyToShoot(c, now) && c.attributes.bulletsPerSecond > 0 ==>
      |r.1| == |group| + 2 && r.1[|group|].x == c.x - DoubleOffset && r.1[|group| + 1].x == c.x + DoubleOffset
    ensures ReadyToShoot(c, now) && c.attributes.bulletsPerSecond <= 0 ==>
      |r.1| == |group| + 1 && r.1[|group|].x == c.x
    ensures forall i :: |group| <= i < |r.1| ==> r.1[i].y == c.y
    ensures forall i :: |group| <= i < |r.1| ==>
      && (r.1[i].damage == 2 <==> (if i == |group| then crit0 else crit1) && c.attributes.damageBonus != 0)
      && (r.1[i].damage == 1 || r.1[i].damage == 2)
      && (r.1[i].double <==> c.attributes.bulletsPerSecond > 0)
  {
    if !ReadyToShoot(c, now) then (c, group)
    else
      var c' := c.(lastShotTime := now);
      if c.attributes.bulletsPerSecond > 0 then
        (c', group + [CreateBullet(c', -DoubleOffset, crit0), CreateBullet(c', DoubleOffset, crit1)])
      else
        (c', group + [CreateBullet(c', 0, crit0)])
  }

  /** `create_bullet` is `create_bullet_with_offset` at offset zero, and an offset moves
      the bullet sideways without changing anything else. */
  lemma OffsetShiftsOnly(c: Cannon, offset: int, crit: bool)
    ensures CreateBullet(c, offset, crit) == CreateBullet(c, 0, crit).(x := c.x + offset)
  {
  }

  /** Once a shot has been fired, calling `shoot` again before the interval has elapsed
      adds no bullet and keeps the recorded shot time. */
  lemma ShootThrottles(c: Cannon, group: seq<Bullet>, t1: int, t2: int, crit0: bool, crit1: bool, crit2: bool, crit3: bool)
    requires ReadyToShoot(c, t1)
    requires t2 - t1 < c.currentDelay
    ensures var first := Shoot(c, group, t1, crit0, crit1);
      Shoot(first.0, first.1, t2, crit2, crit3) == first
  {
  }

  /** The two bullets of a double shot sit symmetrically about the cannon, at its height,
      both marked double. */
  lemma DoubleShotIsMirrored(c: Cannon, group: seq<Bullet>, now: int, crit0: bool, crit1: bool)
    requires ReadyToShoot(c, now) && c.attributes.bulletsPerSecond > 0
    ensures var bs := Shoot(c, group, now, crit0, crit1).1;
      && bs[|group|].x + bs[|group| + 1].x == 2 * c.x
      && bs[|group|].y == bs[|group| + 1].y == c.y
      && bs[|group|].double && bs[|group| + 1].double
  {
  }

  /** The delta a card effect gives to `key`, zero when the key is absent. */
  function Delta(effect: map<string, int>, key: string): int
  {
    if key in effect then effect[key] else 0
  }

  /** `apply_card_effect`: each known key adds its delta to its attribute; an effect on the
      shot interval recomputes the current delay, never below the base delay. */
  function ApplyCardEffect(c: Cannon, effect: map<string, int>): (r: Cannon)
    ensures r.x == c.x && r.y == c.y && r.lastShotTime == c.lastShotTime && r.hp == c.hp
    ensures r.attributes.damageBonus == c.attributes.damageBonus + Delta(effect, DamageBonusKey)
    ensures r.attributes.shotDelay == c.attributes.shotDelay + Delta(effect, ShotDelayKey)
    ensures r.attributes.bulletsPerSecond == c.attributes.bulletsPerSecond + Delta(effect, BulletsPerSecondKey)
    ensures r.attributes.cannonHp == c.attributes.cannonHp + Delta(effect, CannonHpKey)
    ensures ShotDelayKey !in effect ==> r.currentDelay == c.currentDelay
    ensures ShotDelayKey in effect ==> r.currentDelay >= BaseDelay
    ensures ShotDelayKey in effect && BaseDelay + r.attributes.shotDelay >= BaseDelay ==>
      r.currentDelay == BaseDelay + r.attributes.shotDelay
    ensures ShotDelayKey in effect && BaseDelay + r.attributes.shotDelay < BaseDelay ==> r.currentDelay == BaseDelay
  {
    var a := c.attributes;
    var a' := Attributes(
      a.damageBonus + Delta(effect, DamageBonusKey),
      a.shotDelay + Delta(effect, ShotDelayKey),
      a.bulletsPerSecond + Delta(effect, BulletsPerSecondKey),
      a.cannonHp + Delta(effect, CannonHpKey));
    var delay := BaseDelay + a'.shotDelay;
    c.(attributes := a',
       currentDelay := if ShotDelayKey in effect then (if delay < BaseDelay then BaseDelay else delay) else c.currentDelay)
  }

  /** Keys outside the panel are reported and ignored: an effect made only of them changes nothing. */
  lemma UnknownKeysChangeNothing(c: Cannon, effect: map<string, int>)
    requires forall k :: k in effect ==> !IsAttributeKey(k)
    ensures ApplyCardEffect(c, effect) == c
  {
    assert DamageBonusKey !in effect && ShotDelayKey !in effect;
    assert BulletsPerSecondKey !in effect && CannonHpKey !in effect;
  }

  /** The current delay starts at the base delay and no sequence of card effects takes it below. */
  lemma {:induction false} DelayFloor(c: Cannon, effects: seq<map<string, int>>)
    requires c.currentDelay >= BaseDelay
    ensures ApplyAll(c, effects).currentDelay >= BaseDelay
    decreases |effects|
  {
    if effects != [] {
      DelayFloor(ApplyCardEffect(c, effects[0]), effects[1..]);
    }
  }

  function ApplyAll(c: Cannon, effects: seq<map<string, int>>): Cannon
    decreases |effects|
  {
    if effects == [] then c else ApplyAll(ApplyCardEffect(c, effects[0]), effects[1..])
  }

  /** Card effects are additive, so the order in which two cards are applied does not matter. */
  lemma CardEffectsCommute(c: Cannon, e1: map<string, int>, e2: map<string, int>)
    ensures ApplyCardEffect(ApplyCardEffect(c, e1), e2) == ApplyCardEffect(ApplyCardEffect(c, e2), e1)
  {
  }
}

=== FILE: collisions.dfy ===
/** The collision pass shared by both game variants: the balls are visited in list order
    (over a snapshot, so split children are not visited in the same pass), each ball is
    checked against the bullets in order, the first bullet that hits it is consumed, and the
    ball's fate is decided by the variant's strike rule. */
module Collisions {
  import opened Wrappers
  import opened Bullets

  /** What a single hit does to a ball: it survives changed, it pops (leaving split
      children), or it is cashed in as a reward. */
  datatype Fate<B> = Stays(ball: B) | Pops(children: seq<B>) | Cashed

  /** Outcome of one pass over a bullet list. */
  datatype Sweep<B> = Sweep(kept: seq<B>, spawned: seq<B>, bullets: seq<Bullet>, hits: nat, pops: nat, cashed: nat) {
    /** The ball list after the pass: survivors in order, then the children appended in
        the order their parents popped. */
    function Balls(): seq<B>
    {
      kept + spawned
    }
  }

  /** Index of the first bullet that hits `b`, if any. */
  function FirstHit<B>(isHit: (B, Bullet) -> bool, b: B, bullets: seq<Bullet>): (r: Option<nat>)
    ensures r.Some? ==> r.value < |bullets| && isHit(b, bullets[r.value])
    ensures r.Some? ==> forall j :: 0 <= j < r.value ==> !isHit(b, bullets[j])
    ensures r.None? <==> forall j :: 0 <= j < |bullets| ==> !isHit(b, bullets[j])
  {
    if bullets == [] then None
    else if isHit(b, bullets[0]) then Some(0)
    else match FirstHit(isHit, b, bullets[1..])
      case None => None
      case Some(j) => Some(j + 1)
  }

  /** `bullets` without the one at index `j`. */
  function Without(bullets: seq<Bullet>, j: nat): (r: seq<Bullet>)
    requires j < |bullets|
    ensures |r| == |bullets| - 1
    ensures multiset(r) + multiset{bullets[j]} == multiset(bullets)
  {
    assert bullets == bullets[..j] + [bullets[j]] + bullets[j + 1..];
    bullets[..j] + bullets[j + 1..]
  }

  /** One pass of the balls against one bullet list. */
  function Resolve<B>(isHit: (B, Bullet) -> bool, strike: B -> Fate<B>, balls: seq<B>, bullets: seq<Bullet>): (s: Sweep<B>)
    ensures s.hits <= |balls|
    ensures |s.bullets| + s.hits == |bullets|
    ensures multiset(s.bullets) <= multiset(bullets)
    ensures |s.kept| + s.pops + s.cashed == |balls|
    ensures s.pops + s.cashed <= s.hits
    decreases |balls|
  {
    if balls == [] then Sweep([], [], bullets, 0, 0, 0)
    else
      var b := balls[0];
      match FirstHit(isHit, b, bullets)
      case None =>
        var rest := Resolve(isHit, strike, balls[1..], bullets);
        rest.(kept := [b] + rest.kept)
      case Some(j) =>
        var rest := Resolve(isHit, strike, balls[1..], Without(bullets, j));
        match strike(b)
        case Stays(b') => rest.(kept := [b'] + rest.kept, hits := rest.hits + 1)
        case Pops(children) => rest.(spawned := children + rest.spawned, hits := rest.hits + 1, pops := rest.pops + 1)
        case Cashed => rest.(hits := rest.hits + 1, cashed := rest.cashed + 1)
  }

  /** Every bullet left after a pass was there before it. */
  lemma SurvivingBulletsWereThere<B>(isHit: (B, Bullet) -> bool, strike: B -> Fate<B>, balls: seq<B>, bullets: seq<Bullet>)
    ensures forall c :: c in Resolve(isHit, strike, balls, bullets).bullets ==> c in bullets
  {
    var s := Resolve(isHit, strike, balls, bullets);
    forall c | c in s.bullets
      ensures c in bullets
    {
      assert c in multiset(s.bullets);
    }
  }

  /** When no bullet touches any ball the pass changes nothing. */
  lemma {:induction false} MissesChangeNothing<B>(isHit: (B, Bullet) -> bool, strike: B -> Fate<B>, balls: seq<B>, bullets: seq<Bullet>)
    requires forall i, j :: 0 <= i < |balls| && 0 <= j < |bullets| ==> !isHit(balls[i], bullets[j])
    ensures Resolve(isHit, strike, balls, bullets) == Sweep(balls, [], bullets, 0, 0, 0)
    decreases |balls|
  {
    if balls != [] {
      assert FirstHit(isHit, balls[0], bullets).None?;
      MissesChangeNothing(isHit, strike, balls[1..], bullets);
    }
  }

  /** A pass scores no hit exactly when no bullet touches any ball. */
  lemma {:induction false} NoHitsIffAllMiss<B>(isHit: (B, Bullet) -> bool, strike: B -> Fate<B>, balls: seq<B>, bullets: seq<Bullet>)
    ensures Resolve(isHit, strike, balls, bullets).hits == 0 <==>
      forall i, j :: 0 <= i < |balls| && 0 <= j < |bullets| ==> !isHit(balls[i], bullets[j])
    decreases |balls|
  {
    if balls != [] {
      NoHitsIffAllMiss(isHit, strike, balls[1..], bullets);
      if Resolve(isHit, strike, balls, bullets).hits == 0 {
        assert FirstHit(isHit, balls[0], bullets).None?;
        forall i, j | 0 <= i < |balls| && 0 <= j < |bullets|
          ensures !isHit(balls[i], bullets[j])
        {
          if i > 0 {
            assert balls[i] == balls[1..][i - 1];
          }
        }
      } else {
        MissesChangeNothingConverse(isHit, strike, balls, bullets);
      }
    }
  }

  /** A pass that hits something has a ball and a bullet that touch. */
  lemma MissesChangeNothingConverse<B>(isHit: (B, Bullet) -> bool, strike: B -> Fate<B>, balls: seq<B>, bullets: seq<Bullet>)
    requires Resolve(isHit, strike, balls, bullets).hits != 0
    ensures exists i, j :: 0 <= i < |balls| && 0 <= j < |bullets| && isHit(balls[i], bullets[j])
  {
    if forall i, j :: 0 <= i < |balls| && 0 <= j < |bullets| ==> !isHit(balls[i], bullets[j]) {
      MissesChangeNothing(isHit, strike, balls, bullets);
    }
  }

  /** A single ball consumes the first bullet that hits it, if any, and the strike rule
      alone decides what becomes of it. */
  lemma OneBallFate<B>(isHit: (B, Bullet) -> bool, strike: B -> Fate<B>, b: B, bullets: seq<Bullet>)
    ensures var s := Resolve(isHit, strike, [b], bullets);
      match FirstHit(isHit, b, bullets)
      case None => s == Sweep([b], [], bullets, 0, 0, 0)
      case Some(j) =>
        && s.bullets == Without(bullets, j) && s.hits == 1
        && match strike(b)
           case Stays(b') => s.kept == [b'] && s.spawned == [] && s.pops == 0 && s.cashed == 0
           case Pops(children) => s.kept == [] && s.spawned == children && s.pops == 1 && s.cashed == 0
           case Cashed => s.kept == [] && s.spawned == [] && s.pops == 0 && s.cashed == 1
  {
    assert [b][1..] == [];
  }

  /** A pass is the first ball's pass followed by the pass of the remaining balls against
      the bullets the first one left. */
  lemma FirstBallThenRest<B>(isHit: (B, Bullet) -> bool, strike: B -> Fate<B>, balls: seq<B>, bullets: seq<Bullet>)
    requires balls != []
    ensures var h := Resolve(isHit, strike, [balls[0]], bullets);
      var t := Resolve(isHit, strike, balls[1..], h.bullets);
      Resolve(isHit, strike, balls, bullets)
        == Sweep(h.kept + t.kept, h.spawned + t.spawned, t.bullets, h.hits + t.hits, h.pops + t.pops, h.cashed + t.cashed)
  {
    OneBallFate(isHit, strike, balls[0], bullets);
  }

  /** One movement step for every ball, in order. */
  function MoveAll<B>(move: (B, int, int) -> B, balls: seq<B>, width: int, height: int): (r: seq<B>)
    ensures |r| == |balls|
    ensures forall i :: 0 <= i < |balls| ==> r[i] == move(balls[i], width, height)
  {
    seq(|balls|, i requires 0 <= i < |balls| => move(balls[i], width, height))
  }

  /** Whether some ball's mask overlaps the cannon's. */
  function AnyTouch<B, C>(touches: (B, C) -> bool, balls: seq<B>, c: C): (r: bool)
    ensures r <==> exists i :: 0 <= i < |balls| && touches(balls[i], c)
    decreases |balls|
  {
    if balls == [] then false
    else touches(balls[0], c) || AnyTouch(touches, balls[1..], c)
  }
}

=== FILE: gacha.dfy ===
/** Weighted card draw (test_multi_test_test/gacha.py). The uniform random number the
    source draws in [0, TOTAL_WEIGHT] is the parameter `r`. */
module Gacha {
  import opened Wrappers
  import Cannons

  datatype Card = Card(name: string, weight: int, img: string, effect: map<string, int>)

  /** `CARD_POOL`: four equally weighted cards, each adding one delta to one stat. */
  const CardPool: seq<Card> := [
    Card("藍裕棋の祝福", 1, "image/cards/card1.jpeg", map[Cannons.DamageBonusKey := 1]),
    Card("施至遠の意志", 1, "image/cards/card2.jpeg", map[Cannons.ShotDelayKey := -10]),
    Card("王學誠の怒火", 1, "image/cards/card3.jpeg", map[Cannons.BulletsPerSecondKey := 5]),
    Card("賴城諭の忍耐", 1, "image/cards/card4.jpeg", map[Cannons.CannonHpKey := 1])
  ]

  /** Sum of the weights of the first `n` cards. */
  function Cumulative(cards: seq<Card>, n: nat): int
    requires n <= |cards|
  {
    if n == 0 then 0 else Cumulative(cards, n - 1) + cards[n - 1].weight
  }

  /** Running total once card `j` has been added. */
  function Through(cards: seq<Card>, j: nat): int
    requires j < |cards|
  {
    Cumulative(cards, j + 1)
  }

  /** `TOTAL_WEIGHT`. */
  const TotalWeight: int := Cumulative(CardPool, |CardPool|)

  lemma TotalWeightIsFour()
    ensures TotalWeight == 4
  {
    assert Cumulative(CardPool, 1) == 1;
    assert Cumulative(CardPool, 2) == 2;
    assert Cumulative(CardPool, 3) == 3;
  }

  /** Every card's effect is a single numeric delta on one of the cannon's stats. */
  lemma EffectsAreSingleDeltas()
    ensures forall i :: 0 <= i < |CardPool| ==>
      |CardPool[i].effect| == 1 && forall k :: k in CardPool[i].effect ==> Cannons.IsAttributeKey(k)
  {
  }

  /** The cumulative scan from card `i` on: the index whose running total first reaches
      `r`, or None when the loop runs off the end of the pool. */
  function Scan(cards: seq<Card>, r: real, i: nat): (k: Option<nat>)
    requires i <= |cards|
    ensures k.Some? ==> i <= k.value < |cards| && r <= Through(cards, k.value) as real
    ensures k.Some? ==> forall j :: i <= j < k.value ==> r > Through(cards, j) as real
    ensures k.None? <==> forall j :: i <= j < |cards| ==> r > Through(cards, j) as real
    decreases |cards| - i
  {
    if i == |cards| then None
    else if r <= Through(cards, i) as real then Some(i)
    else Scan(cards, r, i + 1)
  }

  /** Index of the drawn card: the first card whose cumulative weight reaches `r`, or the
      last card when none does. */
  function Pick(cards: seq<Card>, r: real): (k: nat)
    requires |cards| > 0
    ensures k < |cards|
  {
    Scan(cards, r, 0).GetOr(|cards| - 1)
  }

  /** The falling-off-the-end case is reached only when `r` exceeds the total weight. */
  lemma FallbackOnlyAboveTotal(cards: seq<Card>, r: real)
    requires |cards| > 0
    requires forall i :: 0 <= i < |cards| ==> cards[i].weight >= 0
    ensures Scan(cards, r, 0).None? <==> r > Cumulative(cards, |cards|) as real
  {
    assert Through(cards, |cards| - 1) == Cumulative(cards, |cards|);
    if r > Cumulative(cards, |cards|) as real {
      forall j | 0 <= j < |cards|
        ensures r > Through(cards, j) as real
      {
        CumulativeGrows(cards, j + 1, |cards|);
      }
    }
  }

  lemma {:induction false} CumulativeGrows(cards: seq<Card>, m: nat, n: nat)
    requires m <= n <= |cards|
    requires forall i :: 0 <= i < |cards| ==> cards[i].weight >= 0
    ensures Cumulative(cards, m) <= Cumulative(cards, n)
    decreases n - m
  {
    if m < n {
      CumulativeGrows(cards, m, n - 1);
    }
  }

  /** A larger draw never selects an earlier card. */
  lemma PickMonotone(cards: seq<Card>, r1: real, r2: real)
    requires |cards| > 0
    requires r1 <= r2
    ensures Pick(cards, r1) <= Pick(cards, r2)
  {
    forall j | 0 <= j < Pick(cards, r1)
      ensures r2 > Through(cards, j) as real
    {
    }
  }

  /** `draw_card`: the cumulative-weight loop over the pool, returning the name, image and
      effect of the selected card. */
  method DrawCard(r: real) returns (name: string, img: string, effect: map<string, int>)
    ensures exists i :: 0 <= i < |CardPool| && (name, img, effect) == (CardPool[i].name, CardPool[i].img, CardPool[i].effect)
    ensures var c := CardPool[Pick(CardPool, r)]; name == c.name && img == c.img && effect == c.effect
    ensures 0.0 <= r <= TotalWeight as real ==>
      var k := Pick(CardPool, r);
      r <= Through(CardPool, k) as real && forall j :: 0 <= j < k ==> r > Through(CardPool, j) as real
  {
    var acc := 0.0;
    var i := 0;
    while i < |CardPool|
      invariant 0 <= i <= |CardPool|
      invariant acc == Cumulative(CardPool, i) as real
      invariant Scan(CardPool, r, 0) == Scan(CardPool, r, i)
    {
      acc := acc + CardPool[i].weight as real;
      if r <= acc {
        assert Scan(CardPool, r, i) == Some(i);
        return CardPool[i].name, CardPool[i].img, CardPool[i].effect;
      }
      i := i + 1;
    }
    var last := CardPool[|CardPool| - 1];
    return last.name, last.img, last.effect;
  }
}

=== FILE: game.dfy ===
/** One tick of the newer game (test_multi_test/game.py): continuous firing in single-player
    mode and wave firing in multiplayer, host-only spawning, the collision passes, the
    game-over latch, card effects after a level-up, and the snapshot exchange with the
    relay. Rendering, window events other than quitting, and the card picture are left out. */
module Game {
  import opened Wrappers
  import opened Bullets
  import Cannons
  import Gacha
  import opened Wire
  import opened Balls
  import opened Collisions
  import WaveFire
  import Relay

  /** The level's difficulty settings. */
  datatype LevelConfig = LevelConfig(spawnInterval: int, hpMin: int, hpMax: int, speedMin: real, speedMax: real, rewardChance: real)

  /** Settings used when no level manager is attached. */
  const DefaultConfig: LevelConfig := LevelConfig(300, 20, 30, 1.0, 2.5, 0.2)

  /** Cannons stand this far above the bottom of the screen. */
  const CannonLift: int := 130
  /** Spawned balls keep this far from the side edges. */
  const SpawnMargin: int := 50
  const SpawnRadiusMin: int := 40
  const SpawnRadiusMax: int := 70
  const SpawnMaxSplits: int := 3
  const SpawnDxBound: real := 4.0
  /** Points for popping a normal ball and for cashing in a reward ball. */
  const PopPoints: int := 10
  const CashPoints: int := 50
  /** Single-player firing: initial interval (ms) and rate, and what a reward ball adds. */
  const StreamDelay: int := 50
  const StreamRate: int := 20
  const RewardRateBonus: int := 3
  const RewardDelayCut: int := 5
  /** A reward ball only shortens the single-player interval while it is above this. */
  const RewardDelayFloor: int := 20
  /** A card never takes the single-player interval below this. */
  const CardDelayFloor: int := 10

  /** Single-player continuous firing. */
  datatype Stream = Stream(lastShotTime: int, shotDelay: int, bulletsPerSecond: int)

  /** The mode-specific part of the game: single-player firing, or, in multiplayer, this
      player's id, the opponent's cannon and bullets, and the wave-firing counters. */
  datatype Mode =
    | Solo(stream: Stream)
    | Duo(playerId: int, otherCannon: Cannons.Cannon, otherBullets: seq<Bullet>, waves: WaveFire.Waves)

  /** `bullets` is `my_bullets` in multiplayer and `bullets` in single-player mode. */
  datatype Game = Game(
    width: int, height: int, config: LevelConfig, cannon: Cannons.Cannon, mode: Mode,
    bullets: seq<Bullet>, balls: seq<Ball>, score: int, otherScore: int, running: bool,
    spawnTimer: int, damageBonus: int, previousLevel: int)

  /** The state every tick keeps. */
  predicate Valid(g: Game)
  {
    && 0 <= g.spawnTimer <= g.config.spawnInterval
    && 0 <= g.score
    && (forall i :: 0 <= i < |g.bullets| ==> g.bullets[i].y >= 0)
    && (g.mode.Duo? ==> WaveFire.Valid(g.mode.waves))
  }

  /** `reset_game_state`: empty lists, zero scores, fresh timers; the cannons, the screen,
      the level settings and the card bonuses are kept. */
  function Reset(g: Game): (r: Game)
    ensures r == g.(mode := r.mode, bullets := [], balls := [], score := 0, otherScore := 0, running := true, spawnTimer := 0)
    ensures g.mode.Solo? ==> r.mode == Solo(Stream(0, StreamDelay, StreamRate))
    ensures g.mode.Duo? ==> r.mode == Duo(g.mode.playerId, g.mode.otherCannon, [], WaveFire.Initial)
    ensures g.config.spawnInterval >= 0 ==> Valid(r)
  {
    var mode := match g.mode
      case Solo(_) => Solo(Stream(0, StreamDelay, StreamRate))
      case Duo(id, other, _, _) => Duo(id, other, [], WaveFire.Initial);
    g.(mode := mode, bullets := [], balls := [], score := 0, otherScore := 0, running := true, spawnTimer := 0)
  }

  /** The game as constructed: in multiplayer the host's cannon starts at a quarter of the
      width and the client's at three quarters; alone, the cannon starts in the middle. */
  function NewGame(width: int, height: int, config: LevelConfig, multiplayer: bool, playerId: int): (g: Game)
    ensures g.mode.Duo? <==> multiplayer
    ensures g.cannon.y == height - CannonLift
    ensures !multiplayer ==> g.cannon.x == width / 2
    ensures multiplayer && playerId == 0 ==> g.cannon.x == width / 4 && g.mode.otherCannon.x == 3 * width / 4
    ensures multiplayer && playerId != 0 ==> g.cannon.x == 3 * width / 4 && g.mode.otherCannon.x == width / 4
    ensures multiplayer ==> g.mode.otherCannon.y == height - CannonLift && g.mode.playerId == playerId
    ensures config.spawnInterval >= 0 ==> Valid(g)
  {
    var y := height - CannonLift;
    var left := Cannons.NewCannon(width / 4, y);
    var right := Cannons.NewCannon(3 * width / 4, y);
    var blank := Game(width, height, config, Cannons.NewCannon(width / 2, y), Solo(Stream(0, StreamDelay, StreamRate)),
                      [], [], 0, 0, true, 0, 0, 0);
    if !multiplayer then Reset(blank)
    else if playerId == 0 then Reset(blank.(cannon := left, mode := Duo(playerId, right, [], WaveFire.Initial)))
    else Reset(blank.(cannon := right, mode := Duo(playerId, left, [], WaveFire.Initial)))
  }

  // ---------------------------------------------------------------------------------
  // Firing and bullet flight

  /** Single-player firing: a shot when strictly more than `shotDelay` ms have passed. */
  function FireStream(s: Stream, now: int): (r: (Stream, bool))
    ensures r.1 <==> now - s.lastShotTime > s.shotDelay
    ensures r.1 ==> r.0 == s.(lastShotTime := now)
    ensures !r.1 ==> r.0 == s
  {
    if now - s.lastShotTime > s.shotDelay then (s.(lastShotTime := now), true) else (s, false)
  }

  /** `update_bullets`: fire at most one bullet from the cannon, then fly this player's
      bullets and, in multiplayer, the opponent's. */
  function UpdateBullets(g: Game, now: int): (r: Game)
    ensures r == g.(bullets := r.bullets, mode := r.mode)
    ensures |r.bullets| <= |g.bullets| + 1
    ensures forall i :: 0 <= i < |r.bullets| ==> r.bullets[i].y >= 0
    ensures g.mode.Solo? ==> r.mode.Solo? && r.mode.stream == FireStream(g.mode.stream, now).0
    ensures g.mode.Duo? ==> r.mode.Duo? && r.mode.playerId == g.mode.playerId && r.mode.otherCannon == g.mode.otherCannon
    ensures g.mode.Duo? ==> r.mode.waves == WaveFire.Tick(g.mode.waves).0 && r.mode.otherBullets == Fly(g.mode.otherBullets)
    ensures g.mode.Duo? ==> forall i :: 0 <= i < |r.mode.otherBullets| ==> r.mode.otherBullets[i].y >= 0
    ensures (g.mode.Solo? && !FireStream(g.mode.stream, now).1) || (g.mode.Duo? && !WaveFire.Tick(g.mode.waves).1)
      ==> r.bullets == Fly(g.bullets)
    ensures (g.mode.Solo? && FireStream(g.mode.stream, now).1) || (g.mode.Duo? && WaveFire.Tick(g.mode.waves).1)
      ==> r.bullets == Fly(g.bullets + [Plain(g.cannon.x, g.cannon.y)])
  {
    var shot := [Plain(g.cannon.x, g.cannon.y)];
    match g.mode
    case Solo(s) =>
      var (s', fired) := FireStream(s, now);
      g.(bullets := Fly(if fired then g.bullets + shot else g.bullets), mode := Solo(s'))
    case Duo(id, other, otherBullets, w) =>
      var (w', fired) := WaveFire.Tick(w);
      g.(bullets := Fly(if fired then g.bullets + shot else g.bullets), mode := Duo(id, other, Fly(otherBullets), w'))
  }

  // ---------------------------------------------------------------------------------
  // Spawning and ball movement

  /** The outcome of the random draws made by `spawn_ball`. */
  datatype SpawnRoll = SpawnRoll(reward: bool, x: int, radius: int, hp: int, dx: real, dy: real)

  /** The draws lie in the ranges the source draws them from. */
  predicate RollInRange(g: Game, roll: SpawnRoll)
  {
    && SpawnMargin <= roll.x <= g.width - SpawnMargin
    && SpawnRadiusMin <= roll.radius <= SpawnRadiusMax
    && g.config.hpMin <= roll.hp <= g.config.hpMax
    && -SpawnDxBound <= roll.dx <= SpawnDxBound
    && g.config.speedMin <= roll.dy <= g.config.speedMax
  }

  /** `spawn_ball`: a new ball on the top edge, a reward ball or a normal one with up to
      three splits. Normal balls start with their full split budget (as the ball class in
      ball blast/ball.py sets it). */
  function SpawnBall(k: Kernel, g: Game, roll: SpawnRoll): (b: Ball)
    ensures b.Reward? <==> roll.reward
    ensures b.y == 0.0 && b.x == roll.x as real && b.dx == roll.dx && b.dy == roll.dy
    ensures b.Reward? ==> b.radius == k.rewardRadius
    ensures b.Normal? ==> b.radius == roll.radius && b.hp == roll.hp
    ensures b.Normal? ==> b.maxSplits == SpawnMaxSplits == b.splitsRemaining
    ensures RollInRange(g, roll) && b.Normal? ==>
      SpawnRadiusMin <= b.radius <= SpawnRadiusMax && g.config.hpMin <= b.hp <= g.config.hpMax
  {
    if roll.reward then Reward(roll.x as real, 0.0, k.rewardRadius, roll.dx, roll.dy)
    else Normal(roll.x as real, 0.0, roll.radius, roll.dx, roll.dy, roll.hp, SpawnMaxSplits, SpawnMaxSplits)
  }

  /** Only a single-player game or the multiplayer host runs the spawner. */
  predicate Spawns(g: Game)
  {
    g.mode.Solo? || g.mode.playerId == 0
  }

  /** `update_balls`: advance the spawn timer and spawn when it passes the level's
      interval (restarting it at zero), then move every ball. */
  function UpdateBalls(k: Kernel, g: Game, roll: SpawnRoll): (r: Game)
    ensures r == g.(balls := r.balls, spawnTimer := r.spawnTimer)
    ensures !Spawns(g) ==> r.spawnTimer == g.spawnTimer && r.balls == MoveAll(k.move, g.balls, g.width, g.height)
    ensures Spawns(g) && g.spawnTimer + 1 <= g.config.spawnInterval ==>
      r.spawnTimer == g.spawnTimer + 1 && r.balls == MoveAll(k.move, g.balls, g.width, g.height)
    ensures Spawns(g) && g.spawnTimer + 1 > g.config.spawnInterval ==>
      r.spawnTimer == 0 && r.balls == MoveAll(k.move, g.balls + [SpawnBall(k, g, roll)], g.width, g.height)
    ensures |g.balls| <= |r.balls| <= |g.balls| + 1
  {
    if Spawns(g) then
      var timer := g.spawnTimer + 1;
      if timer > g.config.spawnInterval then
        g.(spawnTimer := 0, balls := MoveAll(k.move, g.balls + [SpawnBall(k, g, roll)], g.width, g.height))
      else g.(spawnTimer := timer, balls := MoveAll(k.move, g.balls, g.width, g.height))
    else g.(balls := MoveAll(k.move, g.balls, g.width, g.height))
  }

  // ---------------------------------------------------------------------------------
  // Collisions

  function Points(s: Sweep<Ball>): (p: int)
    ensures p >= 0
    ensures p == 0 <==> s.pops == 0 && s.cashed == 0
  {
    PopPoints * s.pops + CashPoints * s.cashed
  }

  /** One pass of the balls against `bullets` with the newer strike rule. */
  function Pass(k: Kernel, balls: seq<Ball>, bullets: seq<Bullet>): Sweep<Ball>
  {
    Resolve(k.isHit, b => Strike(k, b), balls, bullets)
  }

  /** The single-player interval after `n` reward balls: each one takes 5 ms off while the
      interval is above 20 ms. */
  function Quicken(delay: int, n: nat): (r: int)
    ensures r <= delay
    ensures delay <= RewardDelayFloor || n == 0 ==> r == delay
    ensures delay > RewardDelayFloor ==> r > RewardDelayFloor - RewardDelayCut
    ensures (delay - r) % RewardDelayCut == 0
    decreases n
  {
    if n == 0 || delay <= RewardDelayFloor then delay else Quicken(delay - RewardDelayCut, n - 1)
  }

  /** `handle_collisions`. In multiplayer this player's bullets are resolved first and
      credited to `score` (a cashed reward ball also adds one shot per wave), then the
      opponent's bullets are resolved against the result and credited to `otherScore`.
      Alone, a cashed reward ball raises the fire rate and shortens the interval. */
  function HandleCollisions(k: Kernel, g: Game): (r: Game)
    ensures r == g.(balls := r.balls, bullets := r.bullets, score := r.score, otherScore := r.otherScore, mode := r.mode)
    ensures var s := Pass(k, g.balls, g.bullets);
      r.bullets == s.bullets && r.score == g.score + Points(s)
    ensures g.mode.Solo? ==> r.otherScore == g.otherScore && r.balls == Pass(k, g.balls, g.bullets).Balls()
    ensures g.mode.Solo? ==> var s := Pass(k, g.balls, g.bullets);
      r.mode == Solo(Stream(g.mode.stream.lastShotTime, Quicken(g.mode.stream.shotDelay, s.cashed),
                            g.mode.stream.bulletsPerSecond + RewardRateBonus * s.cashed))
    ensures g.mode.Duo? ==> var s := Pass(k, g.balls, g.bullets); var t := Pass(k, s.Balls(), g.mode.otherBullets);
      && r.mode.Duo? && r.mode.playerId == g.mode.playerId && r.mode.otherCannon == g.mode.otherCannon
      && r.mode.otherBullets == t.bullets && r.balls == t.Balls() && r.otherScore == g.otherScore + Points(t)
      && r.mode.waves == g.mode.waves.(perWave := g.mode.waves.perWave + s.cashed)
    ensures r.score >= g.score && r.otherScore >= g.otherScore
    ensures |r.bullets| <= |g.bullets| && forall c :: c in r.bullets ==> c in g.bullets
  {
    var s := Pass(k, g.balls, g.bullets);
    SurvivingBulletsWereThere(k.isHit, b => Strike(k, b), g.balls, g.bullets);
    match g.mode
    case Solo(st) =>
      g.(balls := s.Balls(), bullets := s.bullets, score := g.score + Points(s),
         mode := Solo(Stream(st.lastShotTime, Quicken(st.shotDelay, s.cashed), st.bulletsPerSecond + RewardRateBonus * s.cashed)))
    case Duo(id, other, otherBullets, w) =>
      var t := Pass(k, s.Balls(), otherBullets);
      g.(balls := t.Balls(), bullets := s.bullets, score := g.score + Points(s), otherScore := g.otherScore + Points(t),
         mode := Duo(id, other, t.bullets, w.(perWave := w.perWave + s.cashed)))
  }

  // ---------------------------------------------------------------------------------
  // Game over

  /** `check_game_over`: the game stops once a ball touches this player's cannon or, in
      multiplayer, the opponent's; it never restarts a stopped game. */
  function CheckGameOver(k: Kernel, g: Game): (r: Game)
    ensures r == g.(running := r.running)
    ensures r.running <==>
      && g.running
      && (forall i :: 0 <= i < |g.balls| ==> !k.touches(g.balls[i], g.cannon))
      && (g.mode.Duo? ==> forall i :: 0 <= i < |g.balls| ==> !k.touches(g.balls[i], g.mode.otherCannon))
  {
    var hitMine := AnyTouch(k.touches, g.balls, g.cannon);
    var hitOther := g.mode.Duo? && AnyTouch(k.touches, g.balls, g.mode.otherCannon);
    if hitMine || hitOther then g.(running := false) else g
  }

  // ---------------------------------------------------------------------------------
  // Card effects

  /** `apply_card_effect`. Each known key adds its delta; the single-player interval never
      drops below 10 ms. In multiplayer the game has no `shot_delay` or
      `bullets_per_second` attribute, so an effect naming either raises (`None`). */
  function ApplyCardEffect(g: Game, effect: map<string, int>): (r: Option<Game>)
    ensures r.None? <==> g.mode.Duo? && (Cannons.ShotDelayKey in effect || Cannons.BulletsPerSecondKey in effect)
    ensures r.Some? ==> r.value == g.(damageBonus := r.value.damageBonus, cannon := r.value.cannon, mode := r.value.mode)
    ensures r.Some? ==> r.value.damageBonus == g.damageBonus + Cannons.Delta(effect, Cannons.DamageBonusKey)
    ensures r.Some? ==> r.value.cannon == g.cannon.(hp := g.cannon.hp + Cannons.Delta(effect, Cannons.CannonHpKey))
    ensures g.mode.Duo? && r.Some? ==> r.value.mode == g.mode
    ensures g.mode.Solo? ==> r.Some? && r.value.mode.Solo?
    ensures g.mode.Solo? ==> var s, s' := g.mode.stream, r.value.mode.stream;
      && s'.lastShotTime == s.lastShotTime
      && s'.bulletsPerSecond == s.bulletsPerSecond + Cannons.Delta(effect, Cannons.BulletsPerSecondKey)
      && (Cannons.ShotDelayKey !in effect ==> s'.shotDelay == s.shotDelay)
      && (Cannons.ShotDelayKey in effect ==> s'.shotDelay >= CardDelayFloor)
      && (Cannons.ShotDelayKey in effect && s.shotDelay + effect[Cannons.ShotDelayKey] >= CardDelayFloor ==>
            s'.shotDelay == s.shotDelay + effect[Cannons.ShotDelayKey])
      && (Cannons.ShotDelayKey in effect && s.shotDelay + effect[Cannons.ShotDelayKey] < CardDelayFloor ==>
            s'.shotDelay == CardDelayFloor)
  {
    var g1 := g.(damageBonus := g.damageBonus + Cannons.Delta(effect, Cannons.DamageBonusKey),
                 cannon := g.cannon.(hp := g.cannon.hp + Cannons.Delta(effect, Cannons.CannonHpKey)));
    match g.mode
    case Duo(_, _, _, _) =>
      if Cannons.ShotDelayKey in effect || Cannons.BulletsPerSecondKey in effect then None else Some(g1)
    case Solo(s) =>
      var delay :=
        if Cannons.ShotDelayKey in effect then
          var d := s.shotDelay + effect[Cannons.ShotDelayKey];
          if d < CardDelayFloor then CardDelayFloor else d
        else s.shotDelay;
      Some(g1.(mode := Solo(Stream(s.lastShotTime, delay, s.bulletsPerSecond + Cannons.Delta(effect, Cannons.BulletsPerSecondKey)))))
  }

  /** The level-up step of `run`: when the level manager reports a level above the last one
      seen, remember it, draw a card with the random number `draw`, and apply its effect. */
  function LevelUp(g: Game, level: Option<int>, draw: real): (r: Option<Game>)
    ensures level.None? || level.value <= g.previousLevel ==> r == Some(g)
    ensures r.Some? ==> r.value.score == g.score && (r.value.mode.Duo? <==> g.mode.Duo?)
    ensures level.Some? && level.value > g.previousLevel ==>
      r == ApplyCardEffect(g.(previousLevel := level.value), Gacha.CardPool[Gacha.Pick(Gacha.CardPool, draw)].effect)
  {
    if level.Some? && level.value > g.previousLevel then
      ApplyCardEffect(g.(previousLevel := level.value), Gacha.CardPool[Gacha.Pick(Gacha.CardPool, draw)].effect)
    else Some(g)
  }

  // ---------------------------------------------------------------------------------
  // Replication

  /** `get_player_state`: the cannon position, this player's bullets and score, and the
      full ball list only from the multiplayer host. */
  function GetPlayerState(g: Game): (m: PlayerMsg<BallRecord>)
    ensures m.cannonX == Some(g.cannon.x) && m.score == Some(g.score)
    ensures m.bullets == Some(BulletsOut(g.bullets))
    ensures m.balls.Some? <==> g.mode.Duo? && g.mode.playerId == 0
    ensures m.balls.Some? ==> DecodeBalls(m.balls.value) == Some(g.balls)
  {
    var balls := if g.mode.Duo? && g.mode.playerId == 0 then Some(EncodeBalls(g.balls)) else None;
    DecodeEncodeBalls(g.balls);
    PlayerMsg(Some(g.cannon.x), Some(BulletsOut(g.bullets)), Some(g.score), balls)
  }

  /** `update_from_network`, field by field: a missing key leaves its field alone; a ball
      list replaces the client's balls wholesale, and only player 1 applies it. A normal-ball
      entry missing a counter raises (`None`). Single-player games ignore the message. */
  function UpdateFromNetwork(g: Game, w: WorldMsg<BallRecord>): (r: Option<Game>)
    ensures g.mode.Solo? ==> r == Some(g)
    ensures r.None? <==> g.mode.Duo? && g.mode.playerId == 1 && w.balls.Some? && DecodeBalls(w.balls.value).None?
    ensures r.Some? ==> r.value == g.(mode := r.value.mode, balls := r.value.balls, otherScore := r.value.otherScore)
    ensures g.mode.Duo? && r.Some? ==>
      var m, m' := g.mode, r.value.mode;
      && m'.Duo? && m'.playerId == m.playerId && m'.waves == m.waves
      && m'.otherCannon == m.otherCannon.(x := w.otherCannonX.GetOr(m.otherCannon.x))
      && (w.otherBullets.None? ==> m'.otherBullets == m.otherBullets)
      && (w.otherBullets.Some? ==> m'.otherBullets == BulletsIn(w.otherBullets.value))
      && r.value.otherScore == w.otherScore.GetOr(g.otherScore)
      && (w.balls.None? || m.playerId != 1 ==> r.value.balls == g.balls)
      && (w.balls.Some? && m.playerId == 1 ==> DecodeBalls(w.balls.value) == Some(r.value.balls))
  {
    match g.mode
    case Solo(_) => Some(g)
    case Duo(id, other, otherBullets, waves) =>
      var other' := if w.otherCannonX.Some? then other.(x := w.otherCannonX.value) else other;
      var otherBullets' := if w.otherBullets.Some? then BulletsIn(w.otherBullets.value) else otherBullets;
      var balls :=
        if w.balls.Some? && id == 1 then DecodeBalls(w.balls.value) else Some(g.balls);
      if balls.None? then None
      else
        var score := if w.otherScore.Some? then w.otherScore.value else g.otherScore;
        Some(g.(mode := Duo(id, other', otherBullets', waves), balls := balls.value, otherScore := score))
  }

  /** The empty reply (the relay's answer before the other player has connected) changes
      nothing. */
  lemma EmptyReplyChangesNothing(g: Game)
    ensures UpdateFromNetwork(g, NoWorldMsg()) == Some(g)
  {
  }

  /** A host snapshot with an empty ball list empties the client's balls. */
  lemma EmptyBallListEmptiesClient(g: Game, w: WorldMsg<BallRecord>)
    requires g.mode.Duo? && g.mode.playerId == 1
    requires w.balls == Some([])
    ensures UpdateFromNetwork(g, w).Some? && UpdateFromNetwork(g, w).value.balls == []
  {
  }

  /** Host to client through the relay: after the host's snapshot is stored and the client
      sends its own, the reply makes the client's balls exactly the host's, and its view of
      the opponent exactly the host's cannon position, bullets and score. */
  lemma HostSnapshotReachesClient(host: Game, client: Game, t: Relay.Table<BallRecord>)
    requires host.mode.Duo? && host.mode.playerId == 0
    requires client.mode.Duo? && client.mode.playerId == 1
    ensures
      var t1 := Relay.HandleMessage(t, 0, GetPlayerState(host)).0;
      var reply := Relay.HandleMessage(t1, 1, GetPlayerState(client)).1;
      var r := UpdateFromNetwork(client, reply);
      && r.Some?
      && r.value.balls == host.balls
      && r.value.mode.otherCannon.x == host.cannon.x
      && r.value.otherScore == host.score
      && |r.value.mode.otherBullets| == |host.bullets|
      && (forall i :: 0 <= i < |host.bullets| ==>
            r.value.mode.otherBullets[i].x == host.bullets[i].x && r.value.mode.otherBullets[i].y == host.bullets[i].y)
  {
    var t1 := Relay.HandleMessage(t, 0, GetPlayerState(host)).0;
    assert t1.states[0] == GetPlayerState(host);
  }

  // ---------------------------------------------------------------------------------
  // The tick

  /** Everything a tick reads from outside: the quit event, the arrow keys, the clock, the
      spawner's random draws, the level manager's current level (None without one), the
      card draw, whether the network is connected, and the relay message waiting in the
      receive queue, if any. */
  datatype TickInput = TickInput(
    quit: bool, left: bool, right: bool, now: int, roll: SpawnRoll,
    level: Option<int>, draw: real, connected: bool, received: Option<WorldMsg<BallRecord>>)

  /** The game after a tick and the snapshot sent to the relay during it. */
  datatype Step = Step(game: Game, sent: Option<PlayerMsg<BallRecord>>)

  /** Arrow-key handling: left then right, each a cannon movement step. */
  function Steer(g: Game, left: bool, right: bool): (r: Game)
    ensures r == g.(cannon := r.cannon)
    ensures r.cannon.y == g.cannon.y
  {
    var c1 := if left then Cannons.Move(g.cannon, "LEFT", g.width) else g.cannon;
    var c2 := if right then Cannons.Move(c1, "RIGHT", g.width) else c1;
    g.(cannon := c2)
  }

  /** The simulation part of `run`, up to and including the game-over check. */
  function Simulate(k: Kernel, g: Game, inp: TickInput): (r: Game)
    ensures r.mode.Duo? <==> g.mode.Duo?
    ensures r.score >= g.score
    ensures r.running ==> g.running && !inp.quit
  {
    var g1 := if inp.quit then g.(running := false) else g;
    var g2 := Steer(g1, inp.left, inp.right);
    var g3 := UpdateBullets(g2, inp.now);
    var g4 := UpdateBalls(k, g3, inp.roll);
    var g5 := HandleCollisions(k, g4);
    CheckGameOver(k, g5)
  }

  /** The network part of `run`: a connected multiplayer game sends its snapshot and
      applies the reply waiting in the queue, if any; otherwise nothing is exchanged.
      `None` when applying the reply raises. */
  function Exchange(g: Game, connected: bool, received: Option<WorldMsg<BallRecord>>): (r: Option<Step>)
    ensures !(g.mode.Duo? && connected) ==> r == Some(Step(g, None))
    ensures g.mode.Duo? && connected && r.Some? ==>
      && r.value.sent == Some(GetPlayerState(g))
      && r.value.game.cannon == g.cannon && r.value.game.score == g.score && r.value.game.mode.Duo?
    ensures g.mode.Duo? && connected && received.None? ==> r == Some(Step(g, Some(GetPlayerState(g))))
    ensures g.mode.Duo? && connected && received.Some? ==>
      (r.None? <==> UpdateFromNetwork(g, received.value).None?)
      && (r.Some? ==> r.value.game == UpdateFromNetwork(g, received.value).value)
  {
    if g.mode.Duo? && connected then
      var sent := GetPlayerState(g);
      match received
      case None => Some(Step(g, Some(sent)))
      case Some(w) =>
        match UpdateFromNetwork(g, w)
        case None => None
        case Some(g8) => Some(Step(g8, Some(sent)))
    else Some(Step(g, None))
  }

  /** The game part of `run`: the simulation, then a card on level-up. */
  function Advance(k: Kernel, g: Game, inp: TickInput): (r: Option<Game>)
    ensures r.Some? ==> r.value.score >= g.score && (r.value.mode.Duo? <==> g.mode.Duo?)
    ensures g.mode.Solo? ==> r.Some?
  {
    LevelUp(Simulate(k, g, inp), inp.level, inp.draw)
  }

  /** `run`: nothing at all happens once the game has stopped. Otherwise simulate, apply a
      card on level-up, then in a connected multiplayer game send the snapshot of the
      updated game and apply whatever reply is waiting. `None` when the tick raises. */
  function Run(k: Kernel, g: Game, inp: TickInput): (r: Option<Step>)
    ensures !g.running ==> r == Some(Step(g, None))
    ensures g.mode.Solo? ==> r.Some? && r.value.sent.None?
    ensures r.Some? && r.value.sent.Some? ==> g.running && g.mode.Duo? && inp.connected
    ensures r.Some? ==> r.value.game.score >= g.score
    ensures r.Some? ==> (r.value.game.mode.Duo? <==> g.mode.Duo?)
    ensures g.running && g.mode.Duo? && inp.connected && r.Some? ==>
      && Advance(k, g, inp).Some?
      && r.value.sent == Some(GetPlayerState(Advance(k, g, inp).value))
      && r.value.sent.value.cannonX == Some(r.value.game.cannon.x)
      && r.value.sent.value.score == Some(r.value.game.score)
  {
    if !g.running then Some(Step(g, None))
    else
      match Advance(k, g, inp)
      case None => None
      case Some(g7) => Exchange(g7, inp.connected, inp.received)
  }

  /** Firing and flight keep the standing invariant. */
  lemma UpdateBulletsKeepsValid(g: Game, now: int)
    requires Valid(g)
    ensures Valid(UpdateBullets(g, now))
  {
  }

  /** Spawning and movement keep the standing invariant. */
  lemma UpdateBallsKeepsValid(k: Kernel, g: Game, roll: SpawnRoll)
    requires Valid(g)
    ensures Valid(UpdateBalls(k, g, roll))
  {
  }

  /** The collision passes keep the standing invariant. */
  lemma HandleCollisionsKeepsValid(k: Kernel, g: Game)
    requires Valid(g)
    ensures Valid(HandleCollisions(k, g))
  {
    var r := HandleCollisions(k, g);
    forall i | 0 <= i < |r.bullets|
      ensures r.bullets[i].y >= 0
    {
      assert r.bullets[i] in g.bullets;
    }
  }

  /** The simulation part of a tick keeps the standing invariant. */
  lemma SimulateKeepsValid(k: Kernel, g: Game, inp: TickInput)
    requires Valid(g)
    ensures Valid(Simulate(k, g, inp))
  {
    var g1 := if inp.quit then g.(running := false) else g;
    var g2 := Steer(g1, inp.left, inp.right);
    UpdateBulletsKeepsValid(g2, inp.now);
    var g3 := UpdateBullets(g2, inp.now);
    UpdateBallsKeepsValid(k, g3, inp.roll);
    var g4 := UpdateBalls(k, g3, inp.roll);
    HandleCollisionsKeepsValid(k, g4);
  }

  /** Card effects and snapshot updates keep the standing invariant. */
  lemma ExchangeKeepsValid(g: Game, level: Option<int>, draw: real, w: WorldMsg<BallRecord>)
    requires Valid(g)
    ensures LevelUp(g, level, draw).Some? ==> Valid(LevelUp(g, level, draw).value)
    ensures UpdateFromNetwork(g, w).Some? ==> Valid(UpdateFromNetwork(g, w).value)
  {
  }

  /** Every tick keeps the game's standing invariant: the spawn timer within the level's
      interval, a non-negative score, this player's bullets on screen, and valid wave
      counters. */
  lemma RunKeepsValid(k: Kernel, g: Game, inp: TickInput)
    requires Valid(g)
    ensures Run(k, g, inp).Some? ==> Valid(Run(k, g, inp).value.game)
  {
    if g.running {
      var g6 := Simulate(k, g, inp);
      SimulateKeepsValid(k, g, inp);
      var w := inp.received.GetOr(NoWorldMsg());
      ExchangeKeepsValid(g6, inp.level, inp.draw, w);
      if LevelUp(g6, inp.level, inp.draw).Some? {
        ExchangeKeepsValid(LevelUp(g6, inp.level, inp.draw).value, inp.level, inp.draw, w);
      }
    }
  }

  /** A client (multiplayer player 1) never spawns: a tick leaves its ball count unchanged
      until the collision pass. */
  lemma ClientNeverSpawns(k: Kernel, g: Game, roll: SpawnRoll)
    requires g.mode.Duo? && g.mode.playerId == 1
    ensures |UpdateBalls(k, g, roll).balls| == |g.balls|
    ensures UpdateBalls(k, g, roll).spawnTimer == g.spawnTimer
  {
  }
}

=== FILE: legacy_game.dfy ===
/** One tick of the older game (test_multi/game.py): wave firing in every mode, a fixed
    spawn interval, normal balls only, and ball objects sent over the wire as they are.
    The older variant's ball, bullet and cannon classes are not part of this model; its
    bullets and cannons are taken to behave as `Bullets` and `Cannons` describe, and its
    ball behaviour enters as the opaque `Kernel`. */
module LegacyGame {
  import opened Wrappers
  import opened Bullets
  import Cannons
  import opened Wire
  import opened Collisions
  import WaveFire
  import Relay
  import LegacyRelay

  datatype Ball = Ball(x: real, y: real, radius: int, dx: real, dy: real, hp: int, maxSplits: int, splitsRemaining: int)

  /** The older ball class's behaviour, left uninterpreted: hit test, split, one movement
      step on a screen of the given size, and the ball-on-cannon mask overlap. */
  datatype Kernel = Kernel(
    isHit: (Ball, Bullet) -> bool,
    split: Ball -> seq<Ball>,
    move: (Ball, int, int) -> Ball,
    touches: (Ball, Cannons.Cannon) -> bool)

  const SpawnInterval: int := 300
  const CannonLift: int := 130
  const SpawnMargin: int := 50
  const SpawnRadiusMin: int := 40
  const SpawnRadiusMax: int := 70
  const SpawnHpMin: int := 20
  const SpawnHpMax: int := 30
  const SpawnMaxSplits: int := 3
  const SpawnDxBound: real := 4.0
  const SpawnDyMin: real := 1.0
  const SpawnDyMax: real := 2.5
  const SplitRadiusFloor: int := 10
  const PopPoints: int := 10

  datatype Game = Game(
    width: int, height: int, multiplayer: bool, playerId: int,
    cannon: Cannons.Cannon, otherCannon: Option<Cannons.Cannon>,
    myBullets: seq<Bullet>, otherBullets: seq<Bullet>, balls: seq<Ball>,
    score: int, otherScore: int, running: bool, waves: WaveFire.Waves, spawnTimer: int)

  /** `reset_game_state`. */
  function Reset(g: Game): (r: Game)
    ensures r.myBullets == [] && r.otherBullets == [] && r.balls == []
    ensures r.score == 0 == r.otherScore && r.running && r.spawnTimer == 0
    ensures r.waves == WaveFire.Initial
    ensures r == g.(myBullets := [], otherBullets := [], balls := [], score := 0, otherScore := 0,
                    running := true, waves := r.waves, spawnTimer := 0)
  {
    g.(myBullets := [], otherBullets := [], balls := [], score := 0, otherScore := 0,
       running := true, waves := WaveFire.Initial, spawnTimer := 0)
  }

  /** The game as constructed: the host on the left quarter, the client on the right
      quarter, a lone player in the middle with no opponent cannon. */
  function NewGame(width: int, height: int, multiplayer: bool, playerId: int): (g: Game)
    ensures g.otherCannon.Some? <==> multiplayer
    ensures g.cannon.y == height - CannonLift
    ensures !multiplayer ==> g.cannon.x == width / 2
    ensures multiplayer && playerId == 0 ==> g.cannon.x == width / 4 && g.otherCannon.value.x == 3 * width / 4
    ensures multiplayer && playerId != 0 ==> g.cannon.x == 3 * width / 4 && g.otherCannon.value.x == width / 4
    ensures g.multiplayer == multiplayer && g.playerId == playerId
    ensures multiplayer ==> g.otherCannon.value.y == height - CannonLift
    ensures g.running && g.balls == []
  {
    var y := height - CannonLift;
    var left := Cannons.NewCannon(width / 4, y);
    var right := Cannons.NewCannon(3 * width / 4, y);
    var blank := Game(width, height, multiplayer, playerId, Cannons.NewCannon(width / 2, y), None,
                      [], [], [], 0, 0, true, WaveFire.Initial, 0);
    if !multiplayer then Reset(blank)
    else if playerId == 0 then Reset(blank.(cannon := left, otherCannon := Some(right)))
    else Reset(blank.(cannon := right, otherCannon := Some(left)))
  }

  /** `update_bullets`: one wave-firing tick, then flight of this player's bullets and, in
      multiplayer only, of the opponent's. */
  function UpdateBullets(g: Game): (r: Game)
    ensures r == g.(myBullets := r.myBullets, otherBullets := r.otherBullets, waves := r.waves)
    ensures r.waves == WaveFire.Tick(g.waves).0
    ensures |r.myBullets| <= |g.myBullets| + 1
    ensures WaveFire.Tick(g.waves).1 ==> r.myBullets == Fly(g.myBullets + [Plain(g.cannon.x, g.cannon.y)])
    ensures !WaveFire.Tick(g.waves).1 ==> r.myBullets == Fly(g.myBullets)
    ensures forall i :: 0 <= i < |r.myBullets| ==> r.myBullets[i].y >= 0
    ensures g.multiplayer ==> r.otherBullets == Fly(g.otherBullets)
    ensures !g.multiplayer ==> r.otherBullets == g.otherBullets
  {
    var (w', fired) := WaveFire.Tick(g.waves);
    var mine := if fired then g.myBullets + [Plain(g.cannon.x, g.cannon.y)] else g.myBullets;
    g.(waves := w', myBullets := Fly(mine), otherBullets := if g.multiplayer then Fly(g.otherBullets) else g.otherBullets)
  }

  /** A fired shot leaves from the cannon: when it is still on screen after its first step,
      it is the last of this player's bullets, directly above the cannon. */
  lemma ShotLeavesFromCannon(g: Game)
    requires WaveFire.Tick(g.waves).1
    requires g.cannon.y - Speed >= 0
    ensures var r := UpdateBullets(g);
      |r.myBullets| >= 1 && r.myBullets[|r.myBullets| - 1] == Move(Plain(g.cannon.x, g.cannon.y))
  {
    FlyAppend(g.myBullets, Plain(g.cannon.x, g.cannon.y));
  }

  /** The random draws of `spawn_ball`. */
  datatype SpawnRoll = SpawnRoll(x: int, radius: int, hp: int, dx: real, dy: real)

  predicate RollInRange(g: Game, roll: SpawnRoll)
  {
    && SpawnMargin <= roll.x <= g.width - SpawnMargin
    && SpawnRadiusMin <= roll.radius <= SpawnRadiusMax
    && SpawnHpMin <= roll.hp <= SpawnHpMax
    && -SpawnDxBound <= roll.dx <= SpawnDxBound
    && SpawnDyMin <= roll.dy <= SpawnDyMax
  }

  /** `spawn_ball`: a ball on the top edge with up to three splits. */
  function SpawnBall(roll: SpawnRoll): (b: Ball)
    ensures b.y == 0.0 && b.x == roll.x as real && b.dx == roll.dx && b.dy == roll.dy
    ensures b.maxSplits == SpawnMaxSplits == b.splitsRemaining
    ensures b.radius == roll.radius && b.hp == roll.hp
  {
    Ball(roll.x as real, 0.0, roll.radius, roll.dx, roll.dy, roll.hp, SpawnMaxSplits, SpawnMaxSplits)
  }

  /** A spawned ball drawn from the source's ranges has radius in [40, 70], hit points in
      [20, 30] and a split budget of three. */
  lemma SpawnedBallInRange(g: Game, roll: SpawnRoll)
    requires RollInRange(g, roll)
    ensures var b := SpawnBall(roll);
      && SpawnRadiusMin <= b.radius <= SpawnRadiusMax && SpawnHpMin <= b.hp <= SpawnHpMax
      && b.maxSplits == 3 && 0.0 <= b.x - SpawnMargin as real && b.x <= (g.width - SpawnMargin) as real
  {
  }

  predicate Spawns(g: Game)
  {
    !g.multiplayer || g.playerId == 0
  }

  /** `update_balls`: the spawner (alone or as host) counts ticks and spawns once the count
      passes 300, restarting it at zero; then every ball moves. */
  function UpdateBalls(k: Kernel, g: Game, roll: SpawnRoll): (r: Game)
    ensures r == g.(balls := r.balls, spawnTimer := r.spawnTimer)
    ensures !Spawns(g) ==> r.spawnTimer == g.spawnTimer && r.balls == MoveAll(k.move, g.balls, g.width, g.height)
    ensures Spawns(g) && g.spawnTimer + 1 <= SpawnInterval ==>
      r.spawnTimer == g.spawnTimer + 1 && r.balls == MoveAll(k.move, g.balls, g.width, g.height)
    ensures Spawns(g) && g.spawnTimer + 1 > SpawnInterval ==>
      r.spawnTimer == 0 && r.balls == MoveAll(k.move, g.balls + [SpawnBall(roll)], g.width, g.height)
    ensures 0 <= g.spawnTimer <= SpawnInterval ==> 0 <= r.spawnTimer <= SpawnInterval
  {
    if Spawns(g) then
      var timer := g.spawnTimer + 1;
      if timer > SpawnInterval then
        g.(spawnTimer := 0, balls := MoveAll(k.move, g.balls + [SpawnBall(roll)], g.width, g.height))
      else g.(spawnTimer := timer, balls := MoveAll(k.move, g.balls, g.width, g.height))
    else g.(balls := MoveAll(k.move, g.balls, g.width, g.height))
  }

  /** The older strike rule: every hit costs one hit point; at zero or below the ball pops,
      splitting only when larger than radius 10 with splits left. */
  function Strike(k: Kernel, b: Ball): (f: Fate<Ball>)
    ensures !f.Cashed?
    ensures f.Pops? <==> b.hp - 1 <= 0
    ensures f.Stays? ==> f.ball == b.(hp := b.hp - 1)
    ensures f.Pops? && f.children != [] ==> b.radius > SplitRadiusFloor && b.splitsRemaining > 0
    ensures f.Pops? && b.radius > SplitRadiusFloor && b.splitsRemaining > 0 ==> f.children == k.split(b.(hp := b.hp - 1))
  {
    var hit := b.(hp := b.hp - 1);
    if hit.hp <= 0 then Pops(if hit.radius > SplitRadiusFloor && hit.splitsRemaining > 0 then k.split(hit) else [])
    else Stays(hit)
  }

  function Pass(k: Kernel, balls: seq<Ball>, bullets: seq<Bullet>): (s: Sweep<Ball>)
    ensures s.cashed == 0
    ensures forall c :: c in s.bullets ==> c in bullets
  {
    var s := Resolve(k.isHit, b => Strike(k, b), balls, bullets);
    NoCash(k, balls, bullets);
    SurvivingBulletsWereThere(k.isHit, b => Strike(k, b), balls, bullets);
    s
  }

  /** No ball of the older game is ever cashed in. */
  lemma {:induction false} NoCash(k: Kernel, balls: seq<Ball>, bullets: seq<Bullet>)
    ensures Resolve(k.isHit, b => Strike(k, b), balls, bullets).cashed == 0
    decreases |balls|
  {
    if balls != [] {
      var j := FirstHit(k.isHit, balls[0], bullets);
      if j.Some? {
        NoCash(k, balls[1..], Without(bullets, j.value));
      } else {
        NoCash(k, balls[1..], bullets);
      }
    }
  }

  /** `handle_collisions`: this player's bullets first, each pop worth 10 to `score`; in
      multiplayer the opponent's bullets then, each pop worth 10 to `otherScore`. */
  function HandleCollisions(k: Kernel, g: Game): (r: Game)
    ensures r == g.(balls := r.balls, myBullets := r.myBullets, otherBullets := r.otherBullets,
                    score := r.score, otherScore := r.otherScore)
    ensures var s := Pass(k, g.balls, g.myBullets);
      r.myBullets == s.bullets && r.score == g.score + PopPoints * s.pops
    ensures !g.multiplayer ==>
      r.otherBullets == g.otherBullets && r.otherScore == g.otherScore && r.balls == Pass(k, g.balls, g.myBullets).Balls()
    ensures g.multiplayer ==> var t := Pass(k, Pass(k, g.balls, g.myBullets).Balls(), g.otherBullets);
      r.otherBullets == t.bullets && r.otherScore == g.otherScore + PopPoints * t.pops && r.balls == t.Balls()
    ensures r.score >= g.score && r.otherScore >= g.otherScore
    ensures |r.myBullets| <= |g.myBullets| && |r.otherBullets| <= |g.otherBullets|
  {
    var s := Pass(k, g.balls, g.myBullets);
    var g1 := g.(balls := s.Balls(), myBullets := s.bullets, score := g.score + PopPoints * s.pops);
    if g.multiplayer then
      var t := Pass(k, g1.balls, g.otherBullets);
      g1.(balls := t.Balls(), otherBullets := t.bullets, otherScore := g.otherScore + PopPoints * t.pops)
    else g1
  }

  /** `check_game_over`: the game stops once a ball overlaps this player's cannon, or, in
      multiplayer, the opponent's. */
  function CheckGameOver(k: Kernel, g: Game): (r: Game)
    ensures r == g.(running := r.running)
    ensures r.running <==>
      && g.running
      && (forall i :: 0 <= i < |g.balls| ==> !k.touches(g.balls[i], g.cannon))
      && (g.multiplayer && g.otherCannon.Some? ==> forall i :: 0 <= i < |g.balls| ==> !k.touches(g.balls[i], g.otherCannon.value))
  {
    var hitMine := AnyTouch(k.touches, g.balls, g.cannon);
    var hitOther := g.multiplayer && g.otherCannon.Some? && AnyTouch(k.touches, g.balls, g.otherCannon.value);
    if hitMine || hitOther then g.(running := false) else g
  }

  /** `get_player_state`: player 0 attaches its ball objects themselves, whatever the mode. */
  function GetPlayerState(g: Game): (m: PlayerMsg<Ball>)
    ensures m.cannonX == Some(g.cannon.x) && m.score == Some(g.score)
    ensures m.bullets == Some(BulletsOut(g.myBullets))
    ensures m.balls.Some? <==> g.playerId == 0
    ensures m.balls.Some? ==> m.balls.value == g.balls
  {
    PlayerMsg(Some(g.cannon.x), Some(BulletsOut(g.myBullets)), Some(g.score),
              if g.playerId == 0 then Some(g.balls) else None)
  }

  /** `update_from_network`: ignored alone; otherwise each present key overwrites its field,
      and player 1 takes the host's ball list as it is. Setting the opponent cannon's
      position when there is no opponent cannon raises (`None`). */
  function UpdateFromNetwork(g: Game, w: WorldMsg<Ball>): (r: Option<Game>)
    ensures !g.multiplayer ==> r == Some(g)
    ensures r.None? <==> g.multiplayer && w.otherCannonX.Some? && g.otherCannon.None?
    ensures r.Some? ==> r.value == g.(otherCannon := r.value.otherCannon, otherBullets := r.value.otherBullets,
                                      balls := r.value.balls, otherScore := r.value.otherScore)
    ensures g.multiplayer && r.Some? ==>
      && (w.otherCannonX.None? ==> r.value.otherCannon == g.otherCannon)
      && (w.otherCannonX.Some? ==> r.value.otherCannon == Some(g.otherCannon.value.(x := w.otherCannonX.value)))
      && r.value.otherBullets == (if w.otherBullets.Some? then BulletsIn(w.otherBullets.value) else g.otherBullets)
      && r.value.balls == (if w.balls.Some? && g.playerId == 1 then w.balls.value else g.balls)
      && r.value.otherScore == w.otherScore.GetOr(g.otherScore)
  {
    if !g.multiplayer then Some(g)
    else if w.otherCannonX.Some? && g.otherCannon.None? then None
    else
      var other := if w.otherCannonX.Some? then Some(g.otherCannon.value.(x := w.otherCannonX.value)) else g.otherCannon;
      var otherBullets := if w.otherBullets.Some? then BulletsIn(w.otherBullets.value) else g.otherBullets;
      var balls := if w.balls.Some? && g.playerId == 1 then w.balls.value else g.balls;
      var score := if w.otherScore.Some? then w.otherScore.value else g.otherScore;
      Some(g.(otherCannon := other, otherBullets := otherBullets, balls := balls, otherScore := score))
  }

  /** Host to client through the older relay: the client ends up with exactly the host's
      ball objects, cannon position and score. */
  lemma HostSnapshotReachesClient(host: Game, client: Game, t: Relay.Table<Ball>)
    requires host.playerId == 0
    requires client.multiplayer && client.playerId == 1 && client.otherCannon.Some?
    ensures
      var t1 := LegacyRelay.HandleMessage(t, 0, GetPlayerState(host)).0;
      var reply := LegacyRelay.HandleMessage(t1, 1, GetPlayerState(client)).1;
      var r := UpdateFromNetwork(client, reply);
      && r.Some?
      && r.value.balls == host.balls
      && r.value.otherCannon.value.x == host.cannon.x
      && r.value.otherScore == host.score
  {
    var t1 := LegacyRelay.HandleMessage(t, 0, GetPlayerState(host)).0;
    LegacyRelay.AgreesWithRelay(t1, 1, GetPlayerState(client));
  }

  /** What a tick reads from outside. */
  datatype TickInput = TickInput(
    quit: bool, left: bool, right: bool, roll: SpawnRoll, connected: bool, received: Option<WorldMsg<Ball>>)

  datatype Step = Step(game: Game, sent: Option<PlayerMsg<Ball>>)

  function Steer(g: Game, left: bool, right: bool): (r: Game)
    ensures r == g.(cannon := r.cannon)
  {
    var c1 := if left then Cannons.Move(g.cannon, "LEFT", g.width) else g.cannon;
    var c2 := if right then Cannons.Move(c1, "RIGHT", g.width) else c1;
    g.(cannon := c2)
  }

  function Simulate(k: Kernel, g: Game, inp: TickInput): (r: Game)
    ensures r.multiplayer == g.multiplayer && r.playerId == g.playerId
    ensures r.score >= g.score
    ensures r.running ==> g.running && !inp.quit
  {
    var g1 := if inp.quit then g.(running := false) else g;
    var g2 := Steer(g1, inp.left, inp.right);
    var g3 := UpdateBullets(g2);
    var g4 := UpdateBalls(k, g3, inp.roll);
    var g5 := HandleCollisions(k, g4);
    CheckGameOver(k, g5)
  }

  /** `run`: a stopped game does nothing; otherwise simulate and, when connected in
      multiplayer, send the snapshot and apply the waiting reply. */
  function Run(k: Kernel, g: Game, inp: TickInput): (r: Option<Step>)
    ensures !g.running ==> r == Some(Step(g, None))
    ensures !g.multiplayer ==> r.Some? && r.value.sent.None?
    ensures r.Some? && r.value.sent.Some? ==> g.running && g.multiplayer && inp.connected
    ensures g.running && g.multiplayer && inp.connected && r.Some? ==>
      && r.value.sent == Some(GetPlayerState(Simulate(k, g, inp)))
      && r.value.sent.value.cannonX == Some(r.value.game.cannon.x)
      && r.value.sent.value.score == Some(r.value.game.score)
    ensures r.Some? ==> r.value.game.score >= g.score
  {
    if !g.running then Some(Step(g, None))
    else
      var g6 := Simulate(k, g, inp);
      if g6.multiplayer && inp.connected then
        var sent := GetPlayerState(g6);
        match inp.received
        case None => Some(Step(g6, Some(sent)))
        case Some(w) =>
          match UpdateFromNetwork(g6, w)
          case None => None
          case Some(g7) => Some(Step(g7, Some(sent)))
      else Some(Step(g6, None))
  }

  /** What every tick keeps: the spawn counter within its interval, the wave state
      consistent, this player's bullets on screen and the score non-negative. */
  predicate Valid(g: Game)
  {
    && 0 <= g.spawnTimer <= SpawnInterval
    && WaveFire.Valid(g.waves)
    && (forall i :: 0 <= i < |g.myBullets| ==> g.myBullets[i].y >= 0)
    && g.score >= 0
  }

  lemma NewGameIsValid(width: int, height: int, multiplayer: bool, playerId: int)
    ensures Valid(NewGame(width, height, multiplayer, playerId))
  {
  }

  lemma SimulateKeepsValid(k: Kernel, g: Game, inp: TickInput)
    requires Valid(g)
    ensures Valid(Simulate(k, g, inp))
  {
    var g1 := if inp.quit then g.(running := false) else g;
    var g2 := Steer(g1, inp.left, inp.right);
    var g3 := UpdateBullets(g2);
    assert Valid(g3);
    var g4 := UpdateBalls(k, g3, inp.roll);
    assert Valid(g4);
    var g5 := HandleCollisions(k, g4);
    forall i | 0 <= i < |g5.myBullets|
      ensures g5.myBullets[i].y >= 0
    {
      assert g5.myBullets[i] in g4.myBullets;
    }
  }

  /** Applying a reply keeps the invariant: it touches only the opponent's side and the
      ball list. */
  lemma ExchangeKeepsValid(g: Game, w: WorldMsg<Ball>)
    requires Valid(g)
    ensures UpdateFromNetwork(g, w).Some? ==> Valid(UpdateFromNetwork(g, w).value)
  {
  }

  /** Every tick of a valid game, including the network exchange, leaves it valid. */
  lemma RunKeepsValid(k: Kernel, g: Game, inp: TickInput)
    requires Valid(g)
    ensures var r := Run(k, g, inp); r.Some? ==> Valid(r.value.game)
  {
    if g.running {
      SimulateKeepsValid(k, g, inp);
      var g6 := Simulate(k, g, inp);
      if inp.received.Some? {
        ExchangeKeepsValid(g6, inp.received.value);
      }
    }
  }
}

=== FILE: legacy_relay.dfy ===
/** The older relay (test_multi/server.py). Its table, accept loop and disconnection are
    line for line those of `Relay`; its message handler builds the reply as one dictionary
    literal instead of key by key, and is modelled separately here. */
module LegacyRelay {
  import opened Wrappers
  import opened Wire
  import Relay

  /** The older handler: store the message, then answer from the other player's entry. */
  function HandleMessage<B>(t: Relay.Table<B>, p: int, msg: PlayerMsg<B>): (r: (Relay.Table<B>, WorldMsg<B>))
    ensures r.0.players == t.players && r.0.started == t.started
    ensures r.0.states == t.states[p := msg]
  {
    var states := t.states[p := msg];
    var otherId := 1 - p;
    var reply :=
      if otherId in states then
        var other := states[otherId];
        var base := WorldMsg(
          Some(other.cannonX.GetOr(Relay.DefaultCannonX)),
          Some(other.bullets.GetOr([])),
          Some(other.score.GetOr(Relay.DefaultScore)),
          None);
        if otherId == 0 && other.balls.Some? then base.(balls := other.balls) else base
      else NoWorldMsg();
    (t.(states := states), reply)
  }

  /** Both relays store and answer every message identically, so everything proved about
      `Relay.HandleMessage` holds of the older server. */
  lemma AgreesWithRelay<B>(t: Relay.Table<B>, p: int, msg: PlayerMsg<B>)
    ensures HandleMessage(t, p, msg) == Relay.HandleMessage(t, p, msg)
  {
  }

  /** Ball lists are forwarded only from player 0's state, so only player 1 can receive
      one; an absent other entry gives the empty reply. */
  lemma BallsOnlyToPlayerOne<B>(t: Relay.Table<B>, p: int, msg: PlayerMsg<B>)
    ensures var w := HandleMessage(t, p, msg).1;
      && (w.balls.Some? <==> p == 1 && 0 in t.states && t.states[0].balls.Some?)
      && (1 - p !in t.states ==> w == NoWorldMsg())
  {
    AgreesWithRelay(t, p, msg);
  }
}

=== FILE: mini_cannons.dfy ===
/** The mini cannon (test_multi_test/mini_cannon.py): follows the main cannon at a fixed
    offset, fires on its own slower clock and expires after a fixed lifetime. */
module MiniCannons {
  import opened Bullets
  import Cannons

  /** Milliseconds between two mini-cannon shots. */
  const FireDelay: int := 100
  /** Milliseconds a mini cannon lives. */
  const LifeTime: int := 15000
  const OffsetX: int := 60
  const OffsetY: int := 40

  datatype MiniCannon = MiniCannon(x: int, y: int, spawnTime: int, lastShotTime: int, bullets: seq<Bullet>)

  /** A mini cannon created at clock time `now`, beside `main`, with no bullets and its
      shot clock started at its spawn time. */
  function NewMiniCannon(main: Cannons.Cannon, now: int): (m: MiniCannon)
    ensures m.x == main.x + OffsetX && m.y == main.y + OffsetY
    ensures m.spawnTime == now == m.lastShotTime
    ensures m.bullets == []
  {
    MiniCannon(main.x + OffsetX, main.y + OffsetY, now, now, [])
  }

  /** `update` at clock time `now`: follow the main cannon, fire if the shot interval has
      elapsed, fly the bullets, and report whether the mini cannon is still alive. */
  function Update(m: MiniCannon, main: Cannons.Cannon, now: int): (r: (MiniCannon, bool))
    ensures r.0.x == main.x + OffsetX && r.0.y == main.y + OffsetY
    ensures r.0.spawnTime == m.spawnTime
    ensures now - m.lastShotTime >= FireDelay ==> r.0.lastShotTime == now
    ensures now - m.lastShotTime < FireDelay ==> r.0.lastShotTime == m.lastShotTime && r.0.bullets == Fly(m.bullets)
    ensures now - m.lastShotTime >= FireDelay ==> r.0.bullets == Fly(m.bullets + [Plain(r.0.x, r.0.y)])
    ensures |r.0.bullets| <= |m.bullets| + 1
    ensures forall i :: 0 <= i < |r.0.bullets| ==> r.0.bullets[i].y >= 0
    ensures r.1 <==> now - m.spawnTime < LifeTime
  {
    var x := main.x + OffsetX;
    var y := main.y + OffsetY;
    var fired := now - m.lastShotTime >= FireDelay;
    var bullets := if fired then m.bullets + [Plain(x, y)] else m.bullets;
    (MiniCannon(x, y, m.spawnTime, if fired then now else m.lastShotTime, Fly(bullets)),
     now - m.spawnTime < LifeTime)
  }

  /** A shot fired by `update` leaves from the mini cannon's new position and has already
      made its first step when `update` returns, unless that step took it off screen. */
  lemma {:induction false} ShotLeavesFromMiniCannon(m: MiniCannon, main: Cannons.Cannon, now: int)
    requires now - m.lastShotTime >= FireDelay
    requires main.y + OffsetY - Speed >= 0
    ensures var r := Update(m, main, now).0;
      |r.bullets| >= 1 && r.bullets[|r.bullets| - 1] == Move(Plain(r.x, r.y))
  {
    var r := Update(m, main, now).0;
    FlyAppend(m.bullets, Plain(r.x, r.y));
  }

  /** Since the shot clock starts at the spawn time, no shot is fired in the first 100 ms. */
  lemma NoEarlyShot(main: Cannons.Cannon, spawn: int, later: Cannons.Cannon, now: int)
    requires now < spawn + FireDelay
    ensures var r := Update(NewMiniCannon(main, spawn), later, now).0;
      r.bullets == [] && r.lastShotTime == spawn
  {
  }
}

=== FILE: relay.dfy ===
/** The relay server (test_multi_test/server.py) with its sockets, threads and pickling
    stripped away: a table of connected player ids and their last received states, the
    id assignment on accept, the one-reply-per-message rule, and disconnection. */
module Relay {
  import opened Wrappers
  import opened Wire

  const MaxPlayers: int := 2
  /** Values the reply uses for keys missing from the other player's state. */
  const DefaultCannonX: int := 300
  const DefaultScore: int := 0

  /** `players` (the connected ids), `player_states`, and `game_started`, which is set
      when the accept loop ends. */
  datatype Table<B> = Table(players: set<int>, states: map<int, PlayerMsg<B>>, started: bool)

  function EmptyTable<B>(): Table<B>
  {
    Table({}, map[], false)
  }

  /** The initial message sent to an accepted player. */
  datatype Welcome = Welcome(playerId: int, gameReady: bool)

  /** One turn of the accept loop, which runs while fewer than two players are connected
      and is never entered again once it has ended: the new player's id is the number of
      players already connected, its state starts as the empty dictionary, and it is told
      the game is ready exactly when it is the last player the server waits for, whose
      arrival ends the loop. `None` once the loop has ended. */
  function Accept<B>(t: Table<B>): (r: Option<(Table<B>, Welcome)>)
    ensures r.None? <==> t.started || |t.players| >= MaxPlayers
    ensures r.Some? ==> r.value.1.playerId == |t.players|
    ensures r.Some? ==> (r.value.1.gameReady <==> |t.players| == MaxPlayers - 1)
    ensures r.Some? ==> r.value.0.players == t.players + {r.value.1.playerId}
    ensures r.Some? ==> r.value.0.states == t.states[r.value.1.playerId := NoPlayerMsg()]
    ensures r.Some? ==> (r.value.0.started <==> |r.value.0.players| >= MaxPlayers)
  {
    if t.started || |t.players| >= MaxPlayers then None
    else
      var id := |t.players|;
      var players := t.players + {id};
      Some((Table(players, t.states[id := NoPlayerMsg()], |players| >= MaxPlayers), Welcome(id, |t.players| == MaxPlayers - 1)))
  }

  /** Starting from an empty table the first player gets id 0 and is not yet told the game
      is ready, the second gets id 1 and is, and nobody else is accepted. */
  lemma TwoConnections<B>()
    ensures var first := Accept(EmptyTable<B>());
      && first.Some? && first.value.1 == Welcome(0, false)
      && var second := Accept(first.value.0);
      && second.Some? && second.value.1 == Welcome(1, true)
      && second.value.0.players == {0, 1}
      && second.value.0.states == map[0 := NoPlayerMsg(), 1 := NoPlayerMsg()]
      && second.value.0.started
      && Accept(second.value.0).None?
  {
    var first := Accept(EmptyTable<B>());
    assert first.value.0.players == {0};
    var second := Accept(first.value.0);
    assert |second.value.0.players| == 2;
  }

  /** The reply to player `p`, built from the other player's last state alone. */
  function ReplyFor<B>(t: Table<B>, p: int): (w: WorldMsg<B>)
    ensures 1 - p !in t.states ==> w == NoWorldMsg()
    ensures 1 - p in t.states ==>
      var other := t.states[1 - p];
      && w.otherCannonX == Some(other.cannonX.GetOr(DefaultCannonX))
      && w.otherBullets == Some(other.bullets.GetOr([]))
      && w.otherScore == Some(other.score.GetOr(DefaultScore))
    ensures w.balls.Some? <==> p == 1 && 0 in t.states && t.states[0].balls.Some?
    ensures w.balls.Some? ==> w.balls == t.states[0].balls
  {
    var otherId := 1 - p;
    if otherId in t.states then
      var other := t.states[otherId];
      WorldMsg(
        Some(other.cannonX.GetOr(DefaultCannonX)),
        Some(other.bullets.GetOr([])),
        Some(other.score.GetOr(DefaultScore)),
        if otherId == 0 && other.balls.Some? then other.balls else None)
    else NoWorldMsg()
  }

  /** A reply does not depend on anything the player itself has stored. */
  lemma ReplyIgnoresOwnState<B>(t: Table<B>, p: int, m: PlayerMsg<B>)
    ensures ReplyFor(t.(states := t.states[p := m]), p) == ReplyFor(t, p)
  {
    assert 1 - p != p;
  }

  /** Handling one message from player `p`: store it as `p`'s state, leaving every other
      entry alone, and answer with the other player's state. */
  function HandleMessage<B>(t: Table<B>, p: int, msg: PlayerMsg<B>): (r: (Table<B>, WorldMsg<B>))
    ensures r.0.players == t.players && r.0.started == t.started
    ensures r.0.states == t.states[p := msg]
    ensures r.1 == ReplyFor(t, p)
    ensures p == 0 ==> r.1.balls.None?
  {
    var t' := t.(states := t.states[p := msg]);
    ReplyIgnoresOwnState(t, p, msg);
    (t', ReplyFor(t', p))
  }

  /** `disconnect_player`: forget `p` in both tables. */
  function Disconnect<B>(t: Table<B>, p: int): (r: Table<B>)
    ensures p !in r.players && p !in r.states
    ensures forall q :: q != p ==> (q in r.players <==> q in t.players)
    ensures forall q :: q != p ==> (q in r.states <==> q in t.states)
    ensures forall q :: q in r.states ==> r.states[q] == t.states[q]
    ensures r.started == t.started
  {
    t.(players := t.players - {p}, states := t.states - {p})
  }

  /** Disconnecting twice is the same as disconnecting once. */
  lemma DisconnectIdempotent<B>(t: Table<B>, p: int)
    ensures Disconnect(Disconnect(t, p), p) == Disconnect(t, p)
  {
  }

  /** `handle_client` for one connection while the other player sends nothing: every
      received message is stored and answered with exactly one reply, and the session ends
      by disconnecting the player. */
  method HandleClient<B>(t: Table<B>, p: int, msgs: seq<PlayerMsg<B>>) returns (t': Table<B>, replies: seq<WorldMsg<B>>)
    ensures |replies| == |msgs|
    ensures forall i :: 0 <= i < |replies| ==> replies[i] == ReplyFor(t, p)
    ensures t' == Disconnect(t, p)
  {
    var cur := t;
    replies := [];
    var i := 0;
    while i < |msgs|
      invariant 0 <= i <= |msgs|
      invariant |replies| == i
      invariant forall j :: 0 <= j < i ==> replies[j] == ReplyFor(t, p)
      invariant cur.players == t.players && cur.started == t.started
      invariant i == 0 ==> cur == t
      invariant i > 0 ==> cur.states == t.states[p := msgs[i - 1]]
    {
      var step := HandleMessage(cur, p, msgs[i]);
      if i > 0 {
        ReplyIgnoresOwnState(t, p, msgs[i - 1]);
      }
      cur := step.0;
      replies := replies + [step.1];
      i := i + 1;
    }
    t' := Disconnect(cur, p);
    assert cur.states - {p} == t.states - {p};
  }

  /** What the server sees from outside: a connection arriving, a message from a
      connected player's thread, or a player's thread ending. */
  datatype Event<B> = Connect | Receive(p: int, msg: PlayerMsg<B>) | Leave(p: int)

  /** The table after one event. A message can only come from a connected player, since
      each player's thread ends by disconnecting it. */
  function Handle<B>(t: Table<B>, e: Event<B>): (r: Table<B>)
    ensures e.Receive? ==> r.states.Keys <= t.states.Keys + {e.p}
  {
    match e
    case Connect => if Accept(t).Some? then Accept(t).value.0 else t
    case Receive(p, msg) => if p in t.players then HandleMessage(t, p, msg).0 else t
    case Leave(p) => Disconnect(t, p)
  }

  function Replay<B>(t: Table<B>, es: seq<Event<B>>): Table<B>
    decreases |es|
  {
    if es == [] then t else Replay(Handle(t, es[0]), es[1..])
  }

  /** What holds of every table the server reaches: while still accepting, at most player
      0 is connected, and only connected players have a stored state. */
  predicate Reachable<B>(t: Table<B>)
  {
    && (!t.started ==> t.players <= {0})
    && t.states.Keys <= t.players
  }

  lemma HandleKeepsReachable<B>(t: Table<B>, e: Event<B>)
    requires Reachable(t)
    ensures Reachable(Handle(t, e))
  {
    if e.Connect? && !t.started {
      WithinZero(t.players);
      if t.players == {0} {
        assert Accept(t).value.0.players == {0, 1};
      }
    }
  }

  /** A set of ids within {0} is empty or exactly {0}. */
  lemma WithinZero(a: set<int>)
    requires a <= {0}
    ensures a == {} || a == {0}
  {
    if 0 in a {
      assert a == {0};
    } else {
      assert forall x :: x in a ==> x == 0;
      assert a == {};
    }
  }

  lemma {:induction false} ReplayKeepsReachable<B>(t: Table<B>, es: seq<Event<B>>)
    requires Reachable(t)
    ensures Reachable(Replay(t, es))
    decreases |es|
  {
    if es != [] {
      HandleKeepsReachable(t, es[0]);
      ReplayKeepsReachable(Handle(t, es[0]), es[1..]);
    }
  }

  /** Whatever has happened since the server started, an accepted player never gets the id
      of a player still connected, so no live player's stored state is overwritten. */
  lemma AcceptedIdIsFresh<B>(es: seq<Event<B>>)
    ensures var t := Replay(EmptyTable<B>(), es);
      Accept(t).Some? ==> Accept(t).value.1.playerId !in t.players && Accept(t).value.1.playerId !in t.states
  {
    var t := Replay(EmptyTable<B>(), es);
    ReplayKeepsReachable(EmptyTable<B>(), es);
    if !t.started {
      WithinZero(t.players);
    }
  }

  /** Once both players are in, a player leaving does not reopen the accept loop, and the
      remaining player's stored state survives. */
  lemma LeavingAfterStartReopensNothing<B>(m: PlayerMsg<B>)
    ensures
      var t2 := Accept(Accept(EmptyTable<B>()).value.0).value.0;
      var t3 := Disconnect(HandleMessage(t2, 1, m).0, 0);
      && Accept(t3).None?
      && t3.players == {1} && t3.states == map[1 := m]
  {
    TwoConnections<B>();
  }
}

=== FILE: wave_fire.dfy ===
/** Multiplayer wave firing, shared by both game variants (test_multi_test/game.py:145-155
    and test_multi/game.py:92-102): a burst of `perWave` shots, one every `delay` ticks,
    restarted every `interval` ticks. */
module WaveFire {

  datatype Waves = Waves(timer: int, cooldown: int, inWave: int, interval: int, delay: int, perWave: int)

  /** Counters as `reset_game_state` sets them: a wave every 15 ticks, a shot every
      3 ticks, five shots per wave. */
  const Initial: Waves := Waves(0, 0, 0, 15, 3, 5)

  /** The counters' standing invariant. */
  predicate Valid(w: Waves)
  {
    && 0 < w.interval && 0 <= w.timer < w.interval
    && 0 < w.delay && 0 <= w.cooldown < w.delay
    && 0 <= w.inWave <= w.perWave
  }

  /** One tick of the firing counters; the flag says whether a bullet is fired. */
  function Tick(w: Waves): (r: (Waves, bool))
    ensures r.0.interval == w.interval && r.0.delay == w.delay && r.0.perWave == w.perWave
    ensures w.timer + 1 >= w.interval ==> r.0.timer == 0
    ensures w.timer + 1 < w.interval ==> r.0.timer == w.timer + 1
    ensures r.1 <==> (if w.timer + 1 >= w.interval then 0 else w.inWave) < w.perWave && w.cooldown + 1 >= w.delay
    ensures r.1 ==> r.0.cooldown == 0 && r.0.inWave <= w.perWave
    ensures !r.1 && (if w.timer + 1 >= w.interval then 0 else w.inWave) < w.perWave ==> r.0.cooldown == w.cooldown + 1
    ensures (if w.timer + 1 >= w.interval then 0 else w.inWave) >= w.perWave ==> r.0.cooldown == w.cooldown
    ensures r.1 ==> r.0.inWave == 1 + (if w.timer + 1 >= w.interval then 0 else w.inWave)
    ensures !r.1 ==> r.0.inWave == (if w.timer + 1 >= w.interval then 0 else w.inWave)
    ensures Valid(w) ==> Valid(r.0)
  {
    var timer := w.timer + 1;
    var restart := timer >= w.interval;
    var w1 := if restart then w.(timer := 0, inWave := 0) else w.(timer := timer);
    if w1.inWave < w1.perWave then
      var cooldown := w1.cooldown + 1;
      if cooldown >= w1.delay then (w1.(cooldown := 0, inWave := w1.inWave + 1), true)
      else (w1.(cooldown := cooldown), false)
    else (w1, false)
  }

  /** The state after `n` ticks. */
  function Run(w: Waves, n: nat): Waves
    decreases n
  {
    if n == 0 then w else Run(Tick(w).0, n - 1)
  }

  /** Number of shots fired during `n` ticks. */
  function Shots(w: Waves, n: nat): nat
    decreases n
  {
    if n == 0 then 0 else (if Tick(w).1 then 1 else 0) + Shots(Tick(w).0, n - 1)
  }

  /** Within one wave (no restart during the `n` ticks) at most the wave's remaining
      allowance of shots is fired. */
  lemma {:induction false} ShotsWithinWave(w: Waves, n: nat)
    requires Valid(w)
    requires w.timer + n < w.interval
    ensures Shots(w, n) <= w.perWave - w.inWave
    decreases n
  {
    if n > 0 {
      var w' := Tick(w).0;
      ShotsWithinWave(w', n - 1);
    }
  }
}

=== FILE: wire.dfy ===
/** The two message shapes exchanged through the relay. Each is a Python dictionary whose
    keys may be missing; a missing key is `None` here. `B` is the type of one ball entry,
    which differs between the two game variants. */
module Wire {
  import opened Wrappers
  import opened Bullets

  /** One bullet as sent on the wire: `{'x': ..., 'y': ...}`. */
  datatype BulletPos = BulletPos(x: int, y: int)

  /** What a player sends: keys `cannon_x`, `bullets`, `score` and, from the host, `balls`. */
  datatype PlayerMsg<B> = PlayerMsg(cannonX: Option<int>, bullets: Option<seq<BulletPos>>, score: Option<int>, balls: Option<seq<B>>)

  /** What the relay sends back: keys `other_cannon_x`, `other_bullets`, `other_score` and,
      when the other player is the host, `balls`. */
  datatype WorldMsg<B> = WorldMsg(otherCannonX: Option<int>, otherBullets: Option<seq<BulletPos>>, otherScore: Option<int>, balls: Option<seq<B>>)

  /** The empty dictionary `{}`. */
  function NoPlayerMsg<B>(): PlayerMsg<B>
  {
    PlayerMsg(None, None, None, None)
  }

  /** The empty dictionary `{}`. */
  function NoWorldMsg<B>(): WorldMsg<B>
  {
    WorldMsg(None, None, None, None)
  }

  /** The bullet list as sent: one position per bullet, in order. */
  function BulletsOut(bs: seq<Bullet>): (r: seq<BulletPos>)
    ensures |r| == |bs|
    ensures forall i :: 0 <= i < |bs| ==> r[i] == BulletPos(bs[i].x, bs[i].y)
  {
    seq(|bs|, i requires 0 <= i < |bs| => BulletPos(bs[i].x, bs[i].y))
  }

  /** The opponent's bullets as rebuilt from the wire: plain bullets at the sent positions. */
  function BulletsIn(ps: seq<BulletPos>): (r: seq<Bullet>)
    ensures |r| == |ps|
    ensures forall i :: 0 <= i < |ps| ==> r[i] == Plain(ps[i].x, ps[i].y)
  {
    seq(|ps|, i requires 0 <= i < |ps| => Plain(ps[i].x, ps[i].y))
  }

  /** Sending bullets and rebuilding them keeps every position, in order. */
  lemma BulletsRoundTrip(bs: seq<Bullet>)
    ensures |BulletsIn(BulletsOut(bs))| == |bs|
    ensures forall i :: 0 <= i < |bs| ==> BulletsIn(BulletsOut(bs))[i] == Plain(bs[i].x, bs[i].y)
  {
  }
}

=== FILE: wrappers.dfy ===
/** Optional values, standing in for Python dictionary keys that may be absent. */
module Wrappers {

  datatype Option<+T> = None | Some(value: T) {

    /** The value if present, otherwise `default` (Python's `dict.get(key, default)`). */
    function GetOr(default: T): (r: T)
      ensures Some? ==> r == value
      ensures None? ==> r == default
    {
      match this
      case Some(v) => v
      case None => default
    }
  }
}
